=== FILE: README.md ===
# Inbox Zero: digest job and assistant tool cards, modelled in Dafny

This project models two pieces of the Inbox Zero web app as pure functions and
proves properties of them.

1. **The digest job.** This is `sendEmail` in
   `apps/web/app/api/resend/digest/route.ts`. For one email account it:
   - reads the pending digests;
   - marks them PROCESSING;
   - fetches their messages from the provider in batches of at most 100, with a
     pause between batches;
   - groups the digest items into one bucket per normalised rule name, keeping
     the first display name seen;
   - mails the digest;
   - in one transaction, records the schedule occurrence, marks the digests
     SENT and redacts their items.

   An error inside the `try` marks the digests FAILED. The `try` covers
   everything from the early return onwards: the provider fetch, the
   grouping, the token, the mail and the transaction. Errors before it throw
   without marking anything.
2. **The assistant chat tool cards.** These are in
   `apps/web/components/assistant-chat/tools.tsx`. The model covers:
   - which tool name selects which card (`ToolCard`);
   - the entry list `renderActionFields` builds;
   - the diff text of `formatActions`, one line per action as long as no
     action's type or shown value holds a newline (values go in as they are,
     so a value holding a newline spans several lines);
   - the action-type caption;
   - when the operator line between conditions is shown, and the static
     condition lines;
   - the two `hasChanges` tests.

Modules, one file each:

- `Wrappers`: `Option`, `Result`.
- `JsStrings`: JavaScript string behaviour the source relies on:
  - truthiness of an optional string, `a || b`;
  - `join`;
  - `toLowerCase`;
  - `replace` with a string pattern, which replaces the first occurrence only.

  It also holds two reference operations that the source never calls and that
  only serve to state properties: `Split`, splitting at a character, used to
  read the diff text back line by line, and `Distinct`, a list without
  repeats.
- `ActionFields`: `renderActionFields`, `formatActions`, the action-type label,
  and the actions `hasChanges`.
- `RuleConditions`: the conditions arrays, the operator line, the static lines,
  and the conditions `hasChanges`.
- `ToolCards`: the `ToolCard` dispatch and the create-rule title.
- `Batching`: the batch loop, both as a method and as a functional
  specification.
- `DigestGrouping`: the message ids, the id-to-message map, and the grouping
  `reduce`.
- `DigestRun`: the store of accounts, schedules and digests, and one run of
  `sendEmail`.

The outside world of a run is a parameter, a `Services` record:

- the provider's batch fetch, where `None` means it throws;
- whether the unsubscribe token, the mail and the transaction succeed;
- the current instant;
- `calculateNextScheduleDate`.

`camelCase`, JSON parsing with the summary schema, and `extractNameFromEmail`
are uninterpreted functions in an `Interp` record. The query for pending
digests has no `orderBy`, so the rows it scans are a parameter, `rowOrder`.
The rows decide which digests are read and in what order. `DigestRun.RowsOf`
states what the database guarantees: every digest id appears exactly once.
Under that premise, `DigestRun.AllPendingReadOnce` shows the run reads every
PENDING digest of the account exactly once.

## Model

| member | source | states |
|---|---|---|
| Batching.FetchInBatches | apps/web/app/api/resend/digest/route.ts:141-157 | The loop's messages, calls and pauses equal the functional batching: the fetch over consecutive 100-id slices, the calls made up to and including a failing one, and one pause fewer than the calls. An empty id list makes no call and yields no messages. |
| Batching.BatchesSpec | apps/web/app/api/resend/digest/route.ts:148-149 | The slices are non-empty, hold at most 100 ids, all but the last hold exactly 100, and concatenated in order they give back the id list. |
| Batching.AttemptedSpec | apps/web/app/api/resend/digest/route.ts:148-151 | The calls made are a prefix of the batches. When every call succeeds, all batches are called. When one fails, the last call made is the failing one. |
| Batching.BatchCount | apps/web/app/api/resend/digest/route.ts:148 | There are ceil(n/100) batches of n ids. |
| Batching.PauseCount | apps/web/app/api/resend/digest/route.ts:153-155 | A complete fetch of n ids makes ceil(n/100) calls and ceil(n/100)-1 pauses, or no pause when n is 0. |
| Batching.FetchAllConcatenates | apps/web/app/api/resend/digest/route.ts:150-151 | A complete fetch returns each batch's messages concatenated in batch order. |
| DigestGrouping.MessageIds | apps/web/app/api/resend/digest/route.ts:135-137 | The id list has one id per item, digest by digest and item by item, and position i holds item i's messageId. |
| DigestGrouping.MessageMap | apps/web/app/api/resend/digest/route.ts:162 | The map's keys are exactly the fetched ids, and an id maps to its last occurrence in the list. |
| DigestGrouping.RuleNameOf | apps/web/app/api/resend/digest/route.ts:178-179 | An item's rule name is its rule's name when non-empty, otherwise the cold-email rule name. |
| DigestGrouping.GroupKeys | apps/web/app/api/resend/digest/route.ts:168-213 | The grouping has a display name and a bucket for exactly the keys of items whose message was fetched. |
| DigestGrouping.GroupBuckets | apps/web/app/api/resend/digest/route.ts:186-210 | Each bucket holds, in item order, one entry per fetched item with that key whose content parses. |
| DigestGrouping.GroupNames | apps/web/app/api/resend/digest/route.ts:181-184 | A key's display name is the rule name of the first fetched item with that key. |
| DigestGrouping.BucketsBounded | apps/web/app/api/resend/digest/route.ts:186-210 | No item is filed twice. Summed over the bucket keys, each taken once, the buckets hold exactly one entry per fetched item whose content parses, so never more entries than items. |
| DigestGrouping.SumOfBuckets | apps/web/app/api/resend/digest/route.ts:186-210 | The buckets of any distinct keys hold together exactly the filed items with those keys. |
| DigestGrouping.GroupAsWrittenThrows | apps/web/app/api/resend/digest/route.ts:186-209 | The plain-object grouping throws exactly when a fetched item with an inherited key has parseable content. Otherwise no inherited key ever gets a bucket. |
| DigestGrouping.MissingMessageSkipped | apps/web/app/api/resend/digest/route.ts:170-176 | An item whose message was not fetched leaves names and buckets unchanged. |
| DigestGrouping.UnparsedItemOpensBucket | apps/web/app/api/resend/digest/route.ts:182-200 | An item with a fetched message but unparseable content still names and opens its bucket, and adds no entry. |
| DigestGrouping.GroupAsWrittenAgrees | apps/web/app/api/resend/digest/route.ts:168-213 | The plain-object accumulator gives the map-based grouping whenever no key is one an object inherits. |
| DigestGrouping.InheritedKeyThrows | apps/web/app/api/resend/digest/route.ts:186-209 | A rule key "constructor" makes the plain-object grouping throw, where the map-based grouping files the item. |
| DigestRun.PendingDigests | apps/web/app/api/resend/digest/route.ts:79-106 | Every digest read is one of the rows, is a PENDING digest of the account, and is read with its items. |
| DigestRun.PendingDigestsSpec | apps/web/app/api/resend/digest/route.ts:79-83 | The ids read are exactly the account's PENDING digests among the rows. None are read exactly when the id set is empty. |
| DigestRun.PendingReadOnce | apps/web/app/api/resend/digest/route.ts:79-83 | Rows that never repeat give digests that never repeat. |
| DigestRun.AllPendingReadOnce | apps/web/app/api/resend/digest/route.ts:79-83 | When the rows list every digest once, the run reads every PENDING digest of the account, each exactly once, and nothing else. |
| DigestRun.SendEmail | apps/web/app/api/resend/digest/route.ts:50-290 | "Email account not found" is returned exactly for an unknown account, which changes nothing and calls no provider. Every other failure is "Error sending digest email". A success reports success, and has no mail exactly when it is "No digests to process". The run pauses one time fewer than it calls. |
| DigestRun.SetStatus | apps/web/app/api/resend/digest/route.ts:110-119 | The listed digests get the new status. Every other record, and every other field, is unchanged. |
| DigestRun.Redact | apps/web/app/api/resend/digest/route.ts:264-271 | Each item keeps its message and rule, and its content becomes "[REDACTED]". |
| DigestRun.Commit | apps/web/app/api/resend/digest/route.ts:236-272 | The transaction does three things to the store. The account's schedule, if any, gets the last and next occurrence, and other schedules are kept. The processed digests become SENT at now with redacted items. Every other digest is kept. |
| DigestRun.Outcome | apps/web/app/api/resend/digest/route.ts:108-289 | A run for a known account marks its pending digests PROCESSING when there are some. It then ends in one of three ways. With nothing to process, it changes nothing more. A failure marks those digests FAILED. A success commits. |
| DigestRun.UnknownAccount | apps/web/app/api/resend/digest/route.ts:60-70 | An unknown account is an error, changes nothing, mails nothing and calls no provider. |
| DigestRun.NothingPending | apps/web/app/api/resend/digest/route.ts:124-127 | For a known account, with nothing pending and no force, the result is "No digests to process", and no record changes, no mail is sent and no provider call is made. |
| DigestRun.ForcedEmptyDigest | apps/web/app/api/resend/digest/route.ts:128-130 | For a known account, with nothing pending and force set, and when the unsubscribe token is issued, an empty digest goes to the account's address with no provider call and no digest change. Full success reports it sent. |
| DigestRun.TokenFailureSendsNothing | apps/web/app/api/resend/digest/route.ts:215-286 | For a known account, when the unsubscribe token cannot be issued, no mail is sent and the run never reports a digest sent: it either had nothing to process or marks every digest read FAILED. |
| DigestRun.OnlyPendingTouched | apps/web/app/api/resend/digest/route.ts:108-283 | Only the digests read as pending are written. Accounts, other digests and other accounts' schedules are unchanged, and no record appears or disappears. |
| DigestRun.StatusMachine | apps/web/app/api/resend/digest/route.ts:108-283 | Pending digests are PROCESSING while the run works. Every digest moves only PENDING→PROCESSING, then PROCESSING→SENT or FAILED. |
| DigestRun.SuccessfulSend | apps/web/app/api/resend/digest/route.ts:236-289 | After a successful send every processed digest is SENT at now with all its items redacted, and the account's schedule records this and the next occurrence. |
| DigestRun.FailedSend | apps/web/app/api/resend/digest/route.ts:273-287 | For a known account, any failure is "Error sending digest email", marks every processed digest FAILED with its items kept, and leaves schedules alone. |
| DigestRun.ProviderCalls | apps/web/app/api/resend/digest/route.ts:135-157 | A run calls the provider with a prefix of the 100-id batches of its message ids, and pauses one time fewer than it calls. Once mail is built, the calls cover all ids in order. With no ids there is no call. |
| DigestRun.EmailContents | apps/web/app/api/resend/digest/route.ts:215-230 | When no fetched item's key is inherited, the mail is exactly the account's address with the names and buckets of the grouping over the fetched messages: each key's display name is the rule name of the first fetched item with that key, and each bucket is that key's filed entries in item order. |
| DigestRun.InheritedKeyFailsRun | apps/web/app/api/resend/digest/route.ts:186-286 | For a known account, a fetched item with an inherited rule key and parseable content fails the run. No mail is sent, the error is "Error sending digest email", and every digest read ends FAILED. |
| DigestRun.EveryPendingSettled | apps/web/app/api/resend/digest/route.ts:108-289 | For a known account, when the rows list every digest once, a run that reports the digest sent leaves every PENDING digest of the account SENT. A failing run leaves them all FAILED. A run that has pending digests never reports "No digests to process". |
| ActionFields.Collect | apps/web/components/assistant-chat/tools.tsx:569-579 | The entries are exactly the candidates with a non-empty value, and there are no more entries than candidates. |
| ActionFields.CollectOrdered | apps/web/components/assistant-chat/tools.tsx:572-579 | Candidates listed in increasing rank give entries in increasing rank, so no kind appears twice. |
| ActionFields.RenderActionFields | apps/web/components/assistant-chat/tools.tsx:569-581 | Nothing is rendered exactly when no field is set. Otherwise there is one entry per set field, in the order label, Subject, To, CC, BCC, Content, URL, each with that field's value. |
| ActionFields.CardPair | apps/web/components/assistant-chat/tools.tsx:572-579 | The label is pushed alone, and every other field behind its caption with the value last. The captions are the diff line's (Subject, To, CC, BCC, Content), except that the URL field is "URL" on the card where the diff says "Webhook". |
| ActionFields.CardUrlEntry | apps/web/components/assistant-chat/tools.tsx:578-579 | With a URL set, the last entry is the one URL entry, and it prefers url over webhookUrl. |
| ActionFields.DiffEntries | apps/web/components/assistant-chat/tools.tsx:275-286 | A diff line has one part per set field, in the order Label, Content, To, CC, BCC, Subject, Webhook, each with that field's value. |
| ActionFields.ActionParts | apps/web/components/assistant-chat/tools.tsx:274 | A line's first part is "Type: " followed by the type. |
| ActionFields.LineStartsWithType | apps/web/components/assistant-chat/tools.tsx:274-287 | Each action's line starts with "Type: <type>". |
| ActionFields.SingleLineHasNoNewline | apps/web/components/assistant-chat/tools.tsx:274-287 | An action whose type and values hold no newline gives a line without one. |
| ActionFields.FormatActionsLines | apps/web/components/assistant-chat/tools.tsx:271-289 | When no action's type or shown value holds a newline, splitting the text at newlines gives back one line per action, in order. No actions give the empty text. |
| ActionFields.NewlineInLine | apps/web/components/assistant-chat/tools.tsx:271-289 | An action's line holds a newline exactly when its type or one of its shown values does. |
| ActionFields.NewlineInValueSpansLines | apps/web/components/assistant-chat/tools.tsx:271-289 | A single action whose type or shown value holds a newline spreads over at least two lines of the diff text. |
| ActionFields.OppositeUrlPreference | apps/web/components/assistant-chat/tools.tsx:283-286 | With both URLs set, the card shows url and the diff shows webhookUrl. |
| ActionFields.ActionTypeLabelSpec | apps/web/components/assistant-chat/tools.tsx:152 | The caption has the type's length. It is the type lowercased, with only the first "_" turned into a space. |
| ActionFields.ActionsChangedSpec | apps/web/components/assistant-chat/tools.tsx:266-269 | A change is reported only with both lists present, the test is symmetric, and unchanged lists give equal diff text. |
| ActionFields.UrlIgnoredInDiff | apps/web/components/assistant-chat/tools.tsx:266-289 | For any action type and fields with webhookUrl set, changing url alone leaves the diff text unchanged. |
| ActionFields.UrlChangeHiddenInDiff | apps/web/components/assistant-chat/tools.tsx:266-289 | A change to url alone, with webhookUrl set, is reported as a change but leaves the diff text identical. |
| JsStrings.ReplaceFirst | apps/web/components/assistant-chat/tools.tsx:316 | Only the first occurrence of the character is replaced. Without one the text is unchanged, and the length is kept. |
| RuleConditions.CountTruthy | apps/web/components/assistant-chat/tools.tsx:97-100 | The count is 2 exactly when both are truthy and 0 exactly when neither is. |
| RuleConditions.CreatedRuleOperatorLine | apps/web/components/assistant-chat/tools.tsx:97-126 | The create card shows the operator line exactly when instructions are non-empty and a static block is present. It shows the operator, or "AND" when none is set. |
| RuleConditions.CountedStatic | apps/web/components/assistant-chat/tools.tsx:176-181 | The update card counts the static block only when from, to or subject is non-empty. |
| RuleConditions.UpdatedRuleOperatorLine | apps/web/components/assistant-chat/tools.tsx:183-220 | The update card shows the operator line exactly when instructions are non-empty and a static part is non-empty. It shows the operator, or "AND" when none is set. |
| RuleConditions.OperatorLinesAgree | apps/web/components/assistant-chat/tools.tsx:97-186 | Where the update card shows an operator line the create card shows the same one. They differ only for a present but empty static block. |
| RuleConditions.EmptyStaticBlockDiffers | apps/web/components/assistant-chat/tools.tsx:176-186 | Instructions with an empty static block: the create card shows "AND", the update card shows no operator line. |
| RuleConditions.StaticLines | apps/web/components/assistant-chat/tools.tsx:127-141 | With no static block there are no lines. Otherwise each set part has exactly one line, in the order From, To, Subject. Each line carries its part's caption and non-empty value. |
| RuleConditions.ConditionsChangedSpec | apps/web/components/assistant-chat/tools.tsx:188-191 | With both conditions present, a change is reported exactly when the instructions differ. A change of static conditions or operator alone is not reported. Without both conditions there is no change, and the test is symmetric. |
| ToolCards.RuleIdOrEmpty | apps/web/components/assistant-chat/tools.tsx:48 | The rule id when non-empty, otherwise "". |
| ToolCards.ToolCard | apps/web/components/assistant-chat/tools.tsx:36-79 | Nothing is shown exactly for an unknown tool name. The cards get the arguments, the update cards get ruleId or "", and the create card gets the id unchanged. |
| ToolCards.ToolCardRoundTrip | apps/web/components/assistant-chat/tools.tsx:36-79 | The dispatch is one-to-one: a card determines the tool name it was chosen for. |
| ToolCards.UpdateCardsReceiveResult | apps/web/components/assistant-chat/tools.tsx:43-63 | The update cards receive the result's original and updated conditions or actions, or none without a result. |
| ToolCards.CreatedRuleTitle | apps/web/components/assistant-chat/tools.tsx:107 | The title is "New rule created:" exactly when the rule id is non-empty, otherwise "Creating rule:". |

## Left out

- JSX, React state, animation, tooltips, toasts, `confirm` and `deleteRuleAction` are not modelled. They are rendering and side effects; the model keeps only the data each card is given and the lists it builds.
- `UpdatedLearnedPatterns`, `UpdateAbout` and `AddToKnowledgeBase` are not modelled beyond the card chosen for them. They only render their arguments.
- Null actions skipped while rendering (tools.tsx line 311), the capitalising CSS class, and the conditions diff's `|| undefined` are not modelled. They are presentation.
- The `GET` and `POST` handlers, request validation, signature verification, logging and exception capture are not modelled. They wrap `sendEmail`; `force` is a parameter of the run.
- Some failures before the `try` (route.ts line 122) are not modelled: the account query, `createEmailProvider`, the schedule query, the pending-digest query and the PROCESSING update. They throw without marking any digest FAILED. The only such error modelled is a missing account.
- Concurrency between runs is not modelled, nor is the effect of another run changing records between the read and the writes.
- The real two-second `sleep` is counted as a pause, not timed.
- Dates are abstract integers; `new Date()` is the single instant `now`.
- `camelCase`, `JSON.parse` with the zod schema, `extractNameFromEmail` and `calculateNextScheduleDate` are uninterpreted functions. The cold-email rule name is taken to be "Cold Email"; its definition is not part of this model.
- The mail's other props (`baseUrl`, `unsubscribeToken`, `date`) are not modelled. Neither is a bucket key that overwrites one of them or `ruleNames` when spread into the props.
- JsStrings.Lower: lowercases ASCII letters only, where JavaScript's `toLowerCase` also maps other Unicode letters.
- ActionFields.ActionsChangedSpec: `JSON.stringify` inequality is modelled as structural inequality of the datatype. Field order of the JSON and the difference between `null` and a missing field are not modelled.
- The rows the pending-digest query scans are a parameter, because the query fixes no order. `RowsOf`, stating that every digest id appears once, is a premise of the lemmas that need it. It is not derived from a model of the database.
- RuleConditions.ConditionsChangedSpec: `null` and `undefined` instructions are both modelled as a missing value. The source's `!==` reports a change between them; the model does not.
- The order of the rules in the mail is not modelled. The mailer receives the names and buckets in insertion order; the model keeps them as maps.

## Findings

| source | as written | input that shows it | evidently intended | confidence | as-written member | corrected member |
|---|---|---|---|---|---|---|
| apps/web/app/api/resend/digest/route.ts:186-209 | The buckets live in a plain `{}` object, so `acc[key]` also finds the functions every object inherits. For such a key no bucket is created, and the `push` onto the inherited function throws. The error handler then marks every pending digest of the account FAILED. | A rule named "Constructor" (camel-cased to "constructor") with one fetched item whose content parses. | The item is filed in its own bucket, as for any other rule name, using a prototype-free object or a `Map`. | medium, not executed | DigestGrouping.InheritedKeyThrows | DigestGrouping.GroupBuckets |

The as-written accumulator is `DigestGrouping.GroupAsWritten`, and the run (`DigestRun.SendEmail`) uses it as the source does. `DigestRun.InheritedKeyFailsRun` shows the consequence at the run level: every pending digest ends FAILED. The corrected `DigestGrouping.Group` files every item, as `DigestGrouping.GroupBuckets` proves. `DigestGrouping.GroupAsWrittenAgrees` proves the two equal on every input without an inherited key.

=== FILE: action_fields.dfy ===
/** Rule actions as the assistant-chat tool cards show them: the entry list of
    `renderActionFields`, the one-line-per-action text of `formatActions` used
    in the "Updated Actions" diff, the action-type label, and the actions
    `hasChanges` test (apps/web/components/assistant-chat/tools.tsx). */
module ActionFields {
  import opened Wrappers
  import opened JsStrings

  /** The optional fields of an action; each may be a string, `null` or missing. */
  datatype Fields = Fields(
    labelName: Option<string>,
    content: Option<string>,
    to: Option<string>,
    cc: Option<string>,
    bcc: Option<string>,
    subject: Option<string>,
    url: Option<string>,
    webhookUrl: Option<string>)

  /** A rule action: its type (such as "LABEL" or "DRAFT_EMAIL") and its fields. */
  datatype Action = Action(actionType: string, fields: Option<Fields>)

  /** Which field an entry shows. `UrlField` stands for the pair url/webhookUrl,
      of which at most one is shown. */
  datatype FieldKind = LabelField | SubjectField | ToField | CcField | BccField | ContentField | UrlField

  /** One shown field and its (non-empty) value. */
  datatype Entry = Entry(kind: FieldKind, value: string)

  /** Whether the fields behind a kind hold a truthy value. */
  predicate Present(f: Fields, k: FieldKind) {
    match k
    case LabelField => Truthy(f.labelName)
    case SubjectField => Truthy(f.subject)
    case ToField => Truthy(f.to)
    case CcField => Truthy(f.cc)
    case BccField => Truthy(f.bcc)
    case ContentField => Truthy(f.content)
    case UrlField => Truthy(f.url) || Truthy(f.webhookUrl)
  }

  /** No field holds a truthy value. */
  predicate Blank(f: Fields) {
    forall k :: !Present(f, k)
  }

  /** The entries are in strictly increasing `rank`, so no kind appears twice. */
  predicate Ordered(es: seq<Entry>, rank: FieldKind -> nat) {
    forall i, j :: 0 <= i < j < |es| ==> rank(es[i].kind) < rank(es[j].kind)
  }

  /** Exactly the present kinds have an entry. */
  predicate ShowsPresent(f: Fields, es: seq<Entry>) {
    forall k :: Present(f, k) <==> exists i :: 0 <= i < |es| && es[i].kind == k
  }

  /** A field that may be shown: its kind and the value the source tests. */
  datatype Candidate = Candidate(kind: FieldKind, value: Option<string>)

  /** The chain of `if (value) push(...)`: one entry per candidate whose value
      is truthy, in candidate order. */
  function Collect(cs: seq<Candidate>): (es: seq<Entry>)
    ensures |es| <= |cs|
    ensures forall e :: e in es <==> e.value != "" && Candidate(e.kind, Some(e.value)) in cs
  {
    if |cs| == 0 then []
    else
      var rest := Collect(cs[1..]);
      var head := if Truthy(cs[0].value) then [Entry(cs[0].kind, cs[0].value.value)] else [];
      assert cs == [cs[0]] + cs[1..];
      head + rest
  }

  /** Candidates in increasing rank collect to entries in increasing rank. */
  lemma {:induction false} CollectOrdered(cs: seq<Candidate>, rank: FieldKind -> nat)
    requires forall j, j' :: 0 <= j < j' < |cs| ==> rank(cs[j].kind) < rank(cs[j'].kind)
    ensures Ordered(Collect(cs), rank)
  {
    if |cs| > 0 {
      var tail := cs[1..];
      forall j, j' | 0 <= j < j' < |tail|
        ensures rank(tail[j].kind) < rank(tail[j'].kind)
      {
        assert tail[j] == cs[j + 1] && tail[j'] == cs[j' + 1];
      }
      CollectOrdered(tail, rank);
      var rest := Collect(tail);
      forall i | 0 <= i < |rest|
        ensures rank(cs[0].kind) < rank(rest[i].kind)
      {
        assert rest[i] in rest;
        var j :| 0 <= j < |tail| && tail[j] == Candidate(rest[i].kind, Some(rest[i].value));
        assert tail[j] == cs[j + 1];
      }
      var es := Collect(cs);
      if Truthy(cs[0].value) {
        assert es == [Entry(cs[0].kind, cs[0].value.value)] + rest;
        forall i, i' | 0 <= i < i' < |es|
          ensures rank(es[i].kind) < rank(es[i'].kind)
        {
          assert es[i'] == rest[i' - 1];
          if i > 0 {
            assert es[i] == rest[i - 1];
          }
        }
      } else {
        assert es == rest;
      }
    }
  }

  /** A candidate list holding every kind once, at its rank, with the value
      `val` chooses, collects to an ordered list showing exactly the present
      kinds with those values. */
  lemma CollectSpec(f: Fields, cs: seq<Candidate>, rank: FieldKind -> nat, val: FieldKind -> Option<string>)
    requires forall k :: rank(k) < |cs| && cs[rank(k)].kind == k
    requires forall j :: 0 <= j < |cs| ==> rank(cs[j].kind) == j && cs[j].value == val(cs[j].kind)
    requires forall k :: Present(f, k) <==> Truthy(val(k))
    ensures Ordered(Collect(cs), rank)
    ensures ShowsPresent(f, Collect(cs))
    ensures forall i :: 0 <= i < |Collect(cs)| ==> Some(Collect(cs)[i].value) == val(Collect(cs)[i].kind)
  {
    var es := Collect(cs);
    CollectOrdered(cs, rank);
    forall i | 0 <= i < |es|
      ensures Some(es[i].value) == val(es[i].kind) && es[i].value != ""
    {
      assert es[i] in es;
      var j :| 0 <= j < |cs| && cs[j] == Candidate(es[i].kind, Some(es[i].value));
    }
    forall k
      ensures Present(f, k) <==> exists i :: 0 <= i < |es| && es[i].kind == k
    {
      if Present(f, k) {
        var c := cs[rank(k)];
        assert c in cs;
        assert Entry(k, c.value.value) in es;
      }
    }
  }

  // ---------------------------------------------------------------------
  // renderActionFields
  // ---------------------------------------------------------------------

  /** Position of a kind on the card: label, Subject, To, CC, BCC, Content, URL. */
  function CardRank(k: FieldKind): nat {
    match k
    case LabelField => 0
    case SubjectField => 1
    case ToField => 2
    case CcField => 3
    case BccField => 4
    case ContentField => 5
    case UrlField => 6
  }

  /** The value the card shows for a kind: the URL entry prefers `url` to `webhookUrl`. */
  function CardValue(f: Fields, k: FieldKind): Option<string> {
    match k
    case LabelField => f.labelName
    case SubjectField => f.subject
    case ToField => f.to
    case CcField => f.cc
    case BccField => f.bcc
    case ContentField => f.content
    case UrlField => Or(f.url, f.webhookUrl)
  }

  /** The fields `renderActionFields` tests, in the order it tests them. */
  function CardCandidates(f: Fields): seq<Candidate> {
    [ Candidate(LabelField, f.labelName),
      Candidate(SubjectField, f.subject),
      Candidate(ToField, f.to),
      Candidate(CcField, f.cc),
      Candidate(BccField, f.bcc),
      Candidate(ContentField, f.content),
      Candidate(UrlField, Or(f.url, f.webhookUrl)) ]
  }

  /** The entries `renderActionFields` collects. */
  function CardEntries(f: Fields): (es: seq<Entry>)
    ensures Ordered(es, CardRank)
    ensures ShowsPresent(f, es)
    ensures forall i :: 0 <= i < |es| ==> Some(es[i].value) == CardValue(f, es[i].kind)
  {
    CollectSpec(f, CardCandidates(f), CardRank, k => CardValue(f, k));
    Collect(CardCandidates(f))
  }

  /** `renderActionFields(fields)`: nothing when no field is set, otherwise
      the list of entries. */
  function RenderActionFields(f: Fields): (r: Option<seq<Entry>>)
    ensures r.None? <==> Blank(f)
    ensures r.Some? ==> |r.value| > 0 && Ordered(r.value, CardRank) && ShowsPresent(f, r.value)
    ensures r.Some? ==> forall i :: 0 <= i < |r.value| ==> Some(r.value[i].value) == CardValue(f, r.value[i].kind)
  {
    var es := CardEntries(f);
    if |es| == 0 then None
    else
      assert Present(f, es[0].kind);
      Some(es)
  }

  /** The `[key, value]` array pushed for an entry: the label alone, every
      other field behind its caption. The captions are those of a diff line,
      except that the card calls the URL field "URL" where the diff says "Webhook". */
  function CardPair(e: Entry): (p: seq<string>)
    ensures e.kind == LabelField <==> |p| == 1
    ensures |p| >= 1 && p[|p| - 1] == e.value
    ensures e.kind != LabelField && e.kind != UrlField ==> p == [DiffName(e.kind), e.value]
    ensures e.kind == UrlField ==> p == ["URL", e.value] && DiffName(e.kind) == "Webhook"
  {
    match e.kind
    case LabelField => [e.value]
    case SubjectField => ["Subject", e.value]
    case ToField => ["To", e.value]
    case CcField => ["CC", e.value]
    case BccField => ["BCC", e.value]
    case ContentField => ["Content", e.value]
    case UrlField => ["URL", e.value]
  }

  /** At most one URL entry, whose value is `url` when set and `webhookUrl` otherwise. */
  lemma CardUrlEntry(f: Fields)
    requires Truthy(f.url) || Truthy(f.webhookUrl)
    ensures RenderActionFields(f).Some?
    ensures var es := RenderActionFields(f).value;
            |es| >= 1 && es[|es| - 1] == Entry(UrlField, if Truthy(f.url) then f.url.value else f.webhookUrl.value)
  {
    assert Present(f, UrlField);
    assert !Blank(f);
    var es := RenderActionFields(f).value;
    var i :| 0 <= i < |es| && es[i].kind == UrlField;
    if i < |es| - 1 {
      assert CardRank(es[i].kind) < CardRank(es[|es| - 1].kind);
    }
  }

  // ---------------------------------------------------------------------
  // formatActions
  // ---------------------------------------------------------------------

  /** Position of a kind in a diff line: Label, Content, To, CC, BCC, Subject, Webhook. */
  function DiffRank(k: FieldKind): nat {
    match k
    case LabelField => 0
    case ContentField => 1
    case ToField => 2
    case CcField => 3
    case BccField => 4
    case SubjectField => 5
    case UrlField => 6
  }

  /** The value a diff line shows for a kind: Webhook prefers `webhookUrl` to `url`. */
  function DiffValue(f: Fields, k: FieldKind): Option<string> {
    match k
    case UrlField => Or(f.webhookUrl, f.url)
    case _ => CardValue(f, k)
  }

  /** The fields a diff line tests, in the order it tests them. */
  function DiffCandidates(f: Fields): seq<Candidate> {
    [ Candidate(LabelField, f.labelName),
      Candidate(ContentField, f.content),
      Candidate(ToField, f.to),
      Candidate(CcField, f.cc),
      Candidate(BccField, f.bcc),
      Candidate(SubjectField, f.subject),
      Candidate(UrlField, Or(f.webhookUrl, f.url)) ]
  }

  /** The parts after "Type: ..." of one diff line. */
  function DiffEntries(f: Fields): (es: seq<Entry>)
    ensures Ordered(es, DiffRank)
    ensures ShowsPresent(f, es)
    ensures forall i :: 0 <= i < |es| ==> Some(es[i].value) == DiffValue(f, es[i].kind)
  {
    CollectSpec(f, DiffCandidates(f), DiffRank, k => DiffValue(f, k));
    Collect(DiffCandidates(f))
  }

  /** The caption of a kind in a diff line. */
  function DiffName(k: FieldKind): string {
    match k
    case LabelField => "Label"
    case ContentField => "Content"
    case ToField => "To"
    case CcField => "CC"
    case BccField => "BCC"
    case SubjectField => "Subject"
    case UrlField => "Webhook"
  }

  function DiffPart(e: Entry): string {
    DiffName(e.kind) + ": " + e.value
  }

  /** The parts of one action's line: "Type: <type>" and then one part per present field. */
  function ActionParts(a: Action): (parts: seq<string>)
    ensures |parts| >= 1 && parts[0] == "Type: " + a.actionType
  {
    var es := if a.fields.Some? then DiffEntries(a.fields.value) else [];
    ["Type: " + a.actionType] + seq(|es|, i requires 0 <= i < |es| => DiffPart(es[i]))
  }

  /** One action as a line of the diff text. */
  function ActionLine(a: Action): string {
    Join(ActionParts(a), ", ")
  }

  /** `formatActions(actions)`: one line per action, joined by a newline. */
  function FormatActions(actions: seq<Action>): string {
    Join(seq(|actions|, i requires 0 <= i < |actions| => ActionLine(actions[i])), "\n")
  }

  /** No newline in the action's type or in any of its field values. */
  predicate SingleLine(a: Action) {
    && '\n' !in a.actionType
    && (a.fields.Some? ==>
          var f := a.fields.value;
          forall k :: Present(f, k) ==> '\n' !in DiffValue(f, k).value)
  }

  /** Each line starts with "Type: <type>". */
  lemma LineStartsWithType(a: Action)
    ensures "Type: " + a.actionType <= ActionLine(a)
  {
    JoinStartsWithFirst(ActionParts(a), ", ");
  }

  /** An action whose text holds no newline gives a line without one. */
  lemma {:induction false} SingleLineHasNoNewline(a: Action)
    requires SingleLine(a)
    ensures '\n' !in ActionLine(a)
  {
    var parts := ActionParts(a);
    forall i | 0 <= i < |parts|
      ensures '\n' !in parts[i]
    {
      if i == 0 {
        assert parts[0] == "Type: " + a.actionType;
      } else {
        var f := a.fields.value;
        var es := DiffEntries(f);
        var e := es[i - 1];
        assert parts[i] == DiffPart(e);
        assert exists j :: 0 <= j < |es| && es[j].kind == e.kind;
        assert Some(e.value) == DiffValue(f, e.kind);
        assert '\n' !in DiffName(e.kind) by {
          match e.kind
          case LabelField =>
          case ContentField =>
          case ToField =>
          case CcField =>
          case BccField =>
          case SubjectField =>
          case UrlField =>
        }
        assert DiffPart(e) == DiffName(e.kind) + ": " + e.value;
      }
    }
    JoinAvoids(parts, ", ", '\n');
  }

  /** When no action text holds a newline, splitting the formatted text at
      newlines gives back exactly one line per action, in order; no actions
      give the empty text. */
  lemma FormatActionsLines(actions: seq<Action>)
    requires forall i :: 0 <= i < |actions| ==> SingleLine(actions[i])
    ensures |actions| == 0 ==> FormatActions(actions) == ""
    ensures |actions| > 0 ==>
              Split(FormatActions(actions), '\n') == seq(|actions|, i requires 0 <= i < |actions| => ActionLine(actions[i]))
  {
    var lines := seq(|actions|, i requires 0 <= i < |actions| => ActionLine(actions[i]));
    forall i | 0 <= i < |lines|
      ensures '\n' !in lines[i]
    {
      SingleLineHasNoNewline(actions[i]);
    }
    if |actions| > 0 {
      SplitJoin(lines, '\n');
      assert "\n" == ['\n'];
    }
  }

  /** Values go into the line as they are, so a newline in the type or in a
      shown value ends up in the line: an action's line is free of newlines
      exactly when the action is `SingleLine`. */
  lemma {:induction false} NewlineInLine(a: Action)
    ensures '\n' in ActionLine(a) <==> !SingleLine(a)
  {
    if SingleLine(a) {
      SingleLineHasNoNewline(a);
    } else {
      var parts := ActionParts(a);
      if '\n' in a.actionType {
        var t := a.actionType;
        var j :| 0 <= j < |t| && t[j] == '\n';
        assert parts[0][|"Type: "| + j] == '\n';
        JoinContains(parts, ", ", 0, '\n');
      } else {
        var f := a.fields.value;
        var k :| Present(f, k) && '\n' in DiffValue(f, k).value;
        var es := DiffEntries(f);
        var i :| 0 <= i < |es| && es[i].kind == k;
        assert Some(es[i].value) == DiffValue(f, k);
        var v := es[i].value;
        var j :| 0 <= j < |v| && v[j] == '\n';
        var p := DiffPart(es[i]);
        assert p[|DiffName(k) + ": "| + j] == '\n';
        assert parts[i + 1] == p;
        JoinContains(parts, ", ", i + 1, '\n');
      }
    }
  }

  /** A newline in an action's type or shown values spreads that one action
      over several lines of the diff text, so the one-line-per-action reading
      of `FormatActionsLines` needs its premise. */
  lemma NewlineInValueSpansLines(a: Action)
    requires !SingleLine(a)
    ensures |Split(FormatActions([a]), '\n')| >= 2
  {
    NewlineInLine(a);
    assert seq(1, i requires 0 <= i < 1 => ActionLine([a][i])) == [ActionLine(a)];
    SplitAtOccurrence(ActionLine(a), '\n');
  }

  /** The card and the diff disagree on which URL they show: with both set,
      the card shows `url` and the diff line shows `webhookUrl`. */
  lemma OppositeUrlPreference(f: Fields)
    requires Truthy(f.url) && Truthy(f.webhookUrl)
    ensures CardValue(f, UrlField) == f.url
    ensures DiffValue(f, UrlField) == f.webhookUrl
  {
  }

  // ---------------------------------------------------------------------
  // Action-type label and change detection
  // ---------------------------------------------------------------------

  /** `type.toLowerCase().replace("_", " ")`, the caption of an action on a card. */
  function ActionTypeLabel(actionType: string): string {
    ReplaceFirst(Lower(actionType), '_', ' ')
  }

  /** The label is the lowercased type with only its first underscore turned
      into a space; every later underscore stays. */
  lemma ActionTypeLabelSpec(t: string)
    ensures |ActionTypeLabel(t)| == |t|
    ensures '_' !in t ==> ActionTypeLabel(t) == Lower(t)
    ensures '_' in t ==>
              forall i :: 0 <= i < |t| ==>
                ActionTypeLabel(t)[i] == (if i == FirstIndex(t, '_') then ' ' else LowerChar(t[i]))
  {
    var l := Lower(t);
    assert forall i :: 0 <= i < |t| ==> (l[i] == '_' <==> t[i] == '_');
    if '_' in t {
      var i := FirstIndex(t, '_');
      assert l[i] == '_';
      assert FirstIndex(l, '_') == i;
    } else {
      assert '_' !in l;
    }
  }

  /** The actions `hasChanges`: both lists present and not structurally equal. */
  predicate ActionsChanged(original: Option<seq<Action>>, updated: Option<seq<Action>>) {
    original.Some? && updated.Some? && original.value != updated.value
  }

  /** A report of change always comes with two action lists, and an unchanged
      pair formats to the same diff text. */
  lemma ActionsChangedSpec(original: Option<seq<Action>>, updated: Option<seq<Action>>)
    ensures ActionsChanged(original, updated) ==> original.Some? && updated.Some?
    ensures ActionsChanged(original, updated) == ActionsChanged(updated, original)
    ensures original.Some? && updated.Some? && !ActionsChanged(original, updated) ==>
              FormatActions(original.value) == FormatActions(updated.value)
  {
  }

  /** Whenever `webhookUrl` is set, the diff text does not depend on `url`:
      any change to `url` alone leaves every action's line as it was. */
  lemma UrlIgnoredInDiff(t: string, f: Fields, u: Option<string>)
    requires Truthy(f.webhookUrl)
    ensures FormatActions([Action(t, Some(f))]) == FormatActions([Action(t, Some(f.(url := u)))])
  {
    assert DiffCandidates(f) == DiffCandidates(f.(url := u));
  }

  /** A change to `url` alone is reported as a change but is invisible in the
      diff text when `webhookUrl` is set. */
  lemma UrlChangeHiddenInDiff()
    ensures var f := Fields(None, None, None, None, None, None, Some("a"), Some("w"));
            var g := f.(url := Some("b"));
            && ActionsChanged(Some([Action("CALL_WEBHOOK", Some(f))]), Some([Action("CALL_WEBHOOK", Some(g))]))
            && FormatActions([Action("CALL_WEBHOOK", Some(f))]) == FormatActions([Action("CALL_WEBHOOK", Some(g))])
  {
    var f := Fields(None, None, None, None, None, None, Some("a"), Some("w"));
    var g := f.(url := Some("b"));
    assert DiffEntries(f) == DiffEntries(g);
    assert Action("CALL_WEBHOOK", Some(f)) != Action("CALL_WEBHOOK", Some(g));
    assert [Action("CALL_WEBHOOK", Some(f))] != [Action("CALL_WEBHOOK", Some(g))] by {
      assert [Action("CALL_WEBHOOK", Some(f))][0] != [Action("CALL_WEBHOOK", Some(g))][0];
    }
  }
}

=== FILE: batching.dfy ===
/** Fetching the digest's messages from the email provider in batches of at
    most 100 ids, pausing between batches to stay under the provider's rate
    limit (`sendEmail` in apps/web/app/api/resend/digest/route.ts). The
    provider call is a parameter; a pause is counted, not timed. */
module Batching {
  import opened Wrappers

  /** The most ids the provider accepts in one call. */
  const BatchSize: nat := 100

  function Min(a: int, b: int): int {
    if a <= b then a else b
  }

  function Flatten<T>(xss: seq<seq<T>>): seq<T>
  {
    if |xss| == 0 then [] else xss[0] + Flatten(xss[1..])
  }

  /** Consecutive slices of `xs` of `size` elements each, the last one
      possibly shorter: `xs.slice(i, i + size)` for i = 0, size, 2 * size, ... */
  function Batches<T>(xs: seq<T>, size: nat): seq<seq<T>>
    requires size > 0
    decreases |xs|
  {
    if |xs| == 0 then []
    else
      var n := Min(size, |xs|);
      [xs[..n]] + Batches(xs[n..], size)
  }

  /** The batches are non-empty, hold at most `size` ids, all but the last
      exactly `size`, and concatenated in order they give back the ids. */
  lemma {:induction false} BatchesSpec<T>(xs: seq<T>, size: nat)
    requires size > 0
    ensures Flatten(Batches(xs, size)) == xs
    ensures forall i :: 0 <= i < |Batches(xs, size)| ==> 0 < |Batches(xs, size)[i]| <= size
    ensures forall i :: 0 <= i < |Batches(xs, size)| - 1 ==> |Batches(xs, size)[i]| == size
    decreases |xs|
  {
    if |xs| > 0 {
      var n := Min(size, |xs|);
      BatchesSpec(xs[n..], size);
      var rest := Batches(xs[n..], size);
      var r := Batches(xs, size);
      assert r == [xs[..n]] + rest;
      assert xs[..n] + xs[n..] == xs;
      assert forall i :: 1 <= i < |r| ==> r[i] == rest[i - 1];
    }
  }

  /** The messages the provider returns for the batches, called one after the
      other; `None` once a call fails (the call throws and no later call is made). */
  function FetchAll<Id, M>(batches: seq<seq<Id>>, fetch: seq<Id> -> Option<seq<M>>): Option<seq<M>>
  {
    if |batches| == 0 then Some([])
    else
      match fetch(batches[0])
      case None => None
      case Some(ms) =>
        match FetchAll(batches[1..], fetch)
        case None => None
        case Some(rest) => Some(ms + rest)
  }

  /** The batches the provider is actually called with: all of them, or up to
      and including the first one whose call fails. */
  function Attempted<Id, M>(batches: seq<seq<Id>>, fetch: seq<Id> -> Option<seq<M>>): seq<seq<Id>>
  {
    if |batches| == 0 then []
    else if fetch(batches[0]).None? then [batches[0]]
    else [batches[0]] + Attempted(batches[1..], fetch)
  }

  /** The calls made are a prefix of the batches: all of them when the fetch
      succeeds, otherwise up to the failing call, which is the last one made. */
  lemma {:induction false} AttemptedSpec<Id, M>(batches: seq<seq<Id>>, fetch: seq<Id> -> Option<seq<M>>)
    ensures Attempted(batches, fetch) <= batches
    ensures FetchAll(batches, fetch).Some? ==> Attempted(batches, fetch) == batches
    ensures FetchAll(batches, fetch).None? ==>
              |Attempted(batches, fetch)| > 0 && fetch(Attempted(batches, fetch)[|Attempted(batches, fetch)| - 1]).None?
  {
    if |batches| > 0 && fetch(batches[0]).Some? {
      AttemptedSpec(batches[1..], fetch);
      assert batches == [batches[0]] + batches[1..];
    }
  }

  /** The pauses taken around the calls made: one after every call except the last. */
  function PausesBetween(calls: nat): nat {
    if calls == 0 then 0 else calls - 1
  }

  function Prepend<M>(acc: seq<M>, r: Option<seq<M>>): Option<seq<M>> {
    match r
    case None => None
    case Some(ms) => Some(acc + ms)
  }

  lemma BatchesStep<T>(xs: seq<T>, i: nat)
    requires i < |xs|
    ensures Batches(xs[i..], BatchSize) == [xs[i..Min(i + BatchSize, |xs|)]] + Batches(xs[Min(i + BatchSize, |xs|)..], BatchSize)
  {
    var rest := xs[i..];
    assert rest[..Min(BatchSize, |rest|)] == xs[i..Min(i + BatchSize, |xs|)];
    assert rest[Min(BatchSize, |rest|)..] == xs[Min(i + BatchSize, |xs|)..];
  }

  lemma FetchStep<Id, M>(b: seq<Id>, bs: seq<seq<Id>>, fetch: seq<Id> -> Option<seq<M>>, acc: seq<M>)
    ensures fetch(b).None? ==> Prepend(acc, FetchAll([b] + bs, fetch)) == None
    ensures fetch(b).Some? ==> Prepend(acc, FetchAll([b] + bs, fetch)) == Prepend(acc + fetch(b).value, FetchAll(bs, fetch))
    ensures fetch(b).None? ==> Attempted([b] + bs, fetch) == [b]
    ensures fetch(b).Some? ==> Attempted([b] + bs, fetch) == [b] + Attempted(bs, fetch)
  {
    assert ([b] + bs)[1..] == bs;
    match FetchAll(bs, fetch) {
      case None =>
      case Some(ms) =>
        if fetch(b).Some? {
          assert acc + (fetch(b).value + ms) == (acc + fetch(b).value) + ms;
        }
    }
  }

  /** The batch loop: `for (i = 0; i < ids.length; i += 100)` fetches
      `ids.slice(i, i + 100)`, appends the results, and sleeps when more ids
      remain. No call is made for an empty id list. */
  method FetchInBatches<Id, M>(ids: seq<Id>, fetch: seq<Id> -> Option<seq<M>>)
    returns (messages: Option<seq<M>>, calls: seq<seq<Id>>, pauses: nat)
    ensures messages == FetchAll(Batches(ids, BatchSize), fetch)
    ensures calls == Attempted(Batches(ids, BatchSize), fetch)
    ensures pauses == PausesBetween(|calls|)
    ensures |ids| == 0 ==> calls == [] && messages == Some([])
  {
    var acc: seq<M> := [];
    calls := [];
    pauses := 0;
    if |ids| > 0 {
      var i := 0;
      assert ids[0..] == ids;
      match FetchAll(Batches(ids, BatchSize), fetch) {
        case None =>
        case Some(ms) => assert acc + ms == ms;
      }
      while i < |ids|
        invariant 0 <= i
        invariant FetchAll(Batches(ids, BatchSize), fetch) == Prepend(acc, FetchAll(Batches(ids[Min(i, |ids|)..], BatchSize), fetch))
        invariant Attempted(Batches(ids, BatchSize), fetch) == calls + Attempted(Batches(ids[Min(i, |ids|)..], BatchSize), fetch)
        invariant i < |ids| ==> pauses == |calls|
        invariant i >= |ids| ==> |calls| > 0 && pauses == |calls| - 1
        decreases |ids| - i
      {
        var end := Min(i + BatchSize, |ids|);
        var batch := ids[i..end];
        BatchesStep(ids, i);
        FetchStep(batch, Batches(ids[end..], BatchSize), fetch, acc);
        ghost var later := Batches(ids[end..], BatchSize);
        assert Min(i, |ids|) == i;
        assert Attempted(Batches(ids, BatchSize), fetch) == calls + Attempted([batch] + later, fetch);
        var result := fetch(batch);
        if result.None? {
          calls := calls + [batch];
          messages := None;
          pauses := |calls| - 1;
          return;
        }
        assert Attempted([batch] + later, fetch) == [batch] + Attempted(later, fetch);
        assert calls + ([batch] + Attempted(later, fetch)) == (calls + [batch]) + Attempted(later, fetch);
        calls := calls + [batch];
        acc := acc + result.value;
        if i + BatchSize < |ids| {
          pauses := pauses + 1;
        }
        i := i + BatchSize;
      }
      assert Min(i, |ids|) == |ids|;
      assert Batches(ids[|ids|..], BatchSize) == [];
      assert acc + [] == acc;
    }
    messages := Some(acc);
  }

  /** There are ceil(n / 100) batches of `n` ids. */
  lemma {:induction false} BatchCount<T>(xs: seq<T>)
    ensures |Batches(xs, BatchSize)| == (|xs| + 99) / 100
    decreases |xs|
  {
    if |xs| > BatchSize {
      BatchCount(xs[BatchSize..]);
    }
  }

  /** A complete fetch of `n` ids makes ceil(n / 100) calls and pauses one
      time fewer, or not at all when there are no ids. */
  lemma PauseCount<Id, M>(ids: seq<Id>, fetch: seq<Id> -> Option<seq<M>>)
    requires FetchAll(Batches(ids, BatchSize), fetch).Some?
    ensures |Attempted(Batches(ids, BatchSize), fetch)| == (|ids| + 99) / 100
    ensures PausesBetween(|Attempted(Batches(ids, BatchSize), fetch)|) == if |ids| == 0 then 0 else (|ids| + 99) / 100 - 1
  {
    BatchCount(ids);
    AttemptedSpec(Batches(ids, BatchSize), fetch);
  }

  /** A complete fetch returns exactly what the provider gives for each
      consecutive batch, in batch order. */
  lemma {:induction false} FetchAllConcatenates<Id, M>(batches: seq<seq<Id>>, fetch: seq<Id> -> Option<seq<M>>)
    requires forall i :: 0 <= i < |batches| ==> fetch(batches[i]).Some?
    ensures FetchAll(batches, fetch) == Some(Flatten(seq(|batches|, i requires 0 <= i < |batches| => fetch(batches[i]).value)))
  {
    if |batches| > 0 {
      FetchAllConcatenates(batches[1..], fetch);
      var all := seq(|batches|, i requires 0 <= i < |batches| => fetch(batches[i]).value);
      assert all[1..] == seq(|batches[1..]|, i requires 0 <= i < |batches[1..]| => fetch(batches[1..][i]).value);
    }
  }
}

=== FILE: digest_grouping.dfy ===
/** The data side of the digest job (`sendEmail` in
    apps/web/app/api/resend/digest/route.ts): the message ids to fetch, the
    id-to-message lookup, and the single-pass grouping of digest items into
    per-rule buckets with a display name per bucket. */
module DigestGrouping {
  import opened Wrappers
  import opened JsStrings

  /** A digest item: the message it is about, its stored summary (JSON text),
      and the name of the rule whose action produced it, if any. */
  datatype Item = Item(messageId: string, content: string, ruleName: Option<string>)

  /** A digest as read while pending: its id and its items. */
  datatype PendingDigest = PendingDigest(id: string, items: seq<Item>)

  /** A message as the provider returns it: its id and the headers used. */
  datatype Message = Message(id: string, from: Option<string>, subject: Option<string>)

  /** One line of a bucket: the parsed summary, the sender's name, the subject. */
  datatype DigestEntry<S> = DigestEntry(content: S, from: string, subject: string)

  /** Library functions the grouping calls but that are not modelled:
      `camelCase`, JSON parsing followed by the summary schema's `safeParse`
      (`None` when either fails), and `extractNameFromEmail`. */
  datatype Interp<S> = Interp(
    normalise: string -> string,
    parse: string -> Option<S>,
    extractName: string -> string)

  /** The accumulated grouping: display name and bucket per normalised rule name. */
  datatype Grouping<S> = Grouping(ruleNames: map<string, string>, buckets: map<string, seq<DigestEntry<S>>>)

  /** The name used for items whose rule name is missing or empty
      (`RuleName.ColdEmail`). */
  const ColdEmailRuleName := "Cold Email"

  /** Every item of every digest, digest by digest and item by item. */
  function AllItems(ds: seq<PendingDigest>): seq<Item>
  {
    if |ds| == 0 then [] else ds[0].items + AllItems(ds[1..])
  }

  /** `pendingDigests.flatMap(d => d.items.map(i => i.messageId))`. */
  function MessageIds(ds: seq<PendingDigest>): (r: seq<string>)
    ensures |r| == |AllItems(ds)|
    ensures forall i :: 0 <= i < |r| ==> r[i] == AllItems(ds)[i].messageId
  {
    if |ds| == 0 then []
    else
      var items := ds[0].items;
      var here := seq(|items|, j requires 0 <= j < |items| => items[j].messageId);
      var rest := MessageIds(ds[1..]);
      assert forall i :: |here| <= i < |here| + |rest| ==> (here + rest)[i] == rest[i - |here|];
      assert forall i :: |here| <= i < |here| + |rest| ==> AllItems(ds)[i] == AllItems(ds[1..])[i - |here|];
      here + rest
  }

  /** `new Map(messages.map(m => [m.id, m]))`: one entry per id; for an id
      returned twice, the later message wins. */
  function MessageMap(ms: seq<Message>): (m: map<string, Message>)
    ensures m.Keys == set x | x in ms :: x.id
    ensures forall i :: 0 <= i < |ms| && (forall j :: i < j < |ms| ==> ms[j].id != ms[i].id) ==> m[ms[i].id] == ms[i]
    decreases |ms|
  {
    if |ms| == 0 then map[]
    else
      var init := ms[..|ms| - 1];
      var last := ms[|ms| - 1];
      assert ms == init + [last];
      assert forall i :: 0 <= i < |init| ==> init[i] == ms[i];
      MessageMap(init)[last.id := last]
  }

  /** The rule name an item is filed under: its rule's name, or the cold-email
      rule's when missing or empty. */
  function RuleNameOf(it: Item): (r: string)
    ensures Truthy(it.ruleName) ==> r == it.ruleName.value
    ensures !Truthy(it.ruleName) ==> r == ColdEmailRuleName
  {
    if Truthy(it.ruleName) then it.ruleName.value else ColdEmailRuleName
  }

  /** The bucket key of an item: its normalised rule name. */
  function KeyOf<S>(it: Item, interp: Interp<S>): string {
    interp.normalise(RuleNameOf(it))
  }

  /** The entry pushed for an item whose summary parsed, from its message's
      headers (`from || ""`, `subject || ""`). */
  function EntryFor<S>(content: S, m: Message, interp: Interp<S>): DigestEntry<S> {
    DigestEntry(content, interp.extractName(OrEmpty(m.from)), OrEmpty(m.subject))
  }

  /** One step of the `reduce`: skip an item whose message was not fetched;
      otherwise record the display name if the key is new, create the bucket
      if missing, and push an entry only when the content parses. */
  function Step<S>(g: Grouping<S>, it: Item, messages: map<string, Message>, interp: Interp<S>): Grouping<S>
  {
    if it.messageId !in messages then g
    else
      var name := RuleNameOf(it);
      var key := interp.normalise(name);
      var names := if key in g.ruleNames then g.ruleNames else g.ruleNames[key := name];
      var bucket := if key in g.buckets then g.buckets[key] else [];
      var added := match interp.parse(it.content)
        case None => []
        case Some(s) => [EntryFor(s, messages[it.messageId], interp)];
      Grouping(names, g.buckets[key := bucket + added])
  }

  /** The grouping after folding `Step` over the items from left to right. */
  function Group<S>(items: seq<Item>, messages: map<string, Message>, interp: Interp<S>): Grouping<S>
    decreases |items|
  {
    if |items| == 0 then Grouping(map[], map[])
    else Step(Group(items[..|items| - 1], messages, interp), items[|items| - 1], messages, interp)
  }

  // ---------------------------------------------------------------------
  // Reference description of the grouping
  // ---------------------------------------------------------------------

  /** The keys of the items whose message was fetched. */
  function FoundKeys<S>(items: seq<Item>, messages: map<string, Message>, interp: Interp<S>): set<string> {
    set i | 0 <= i < |items| && items[i].messageId in messages :: KeyOf(items[i], interp)
  }

  /** Item `i` is found and no earlier found item has its key. */
  predicate FirstOfKey<S>(items: seq<Item>, i: int, messages: map<string, Message>, interp: Interp<S>)
    requires 0 <= i < |items|
  {
    && items[i].messageId in messages
    && forall j :: 0 <= j < i && items[j].messageId in messages ==> KeyOf(items[j], interp) != KeyOf(items[i], interp)
  }

  /** The entries of bucket `key`: one per found item with that key whose
      content parses, in item order. */
  function BucketOf<S>(items: seq<Item>, key: string, messages: map<string, Message>, interp: Interp<S>): (r: seq<DigestEntry<S>>)
    ensures |r| <= |items|
    decreases |items|
  {
    if |items| == 0 then []
    else
      var it := items[|items| - 1];
      BucketOf(items[..|items| - 1], key, messages, interp)
      + (if it.messageId in messages && KeyOf(it, interp) == key && interp.parse(it.content).Some?
         then [EntryFor(interp.parse(it.content).value, messages[it.messageId], interp)]
         else [])
  }

  /** Extending the items by one adds at most that item's key. */
  lemma FoundKeysStep<S>(items: seq<Item>, messages: map<string, Message>, interp: Interp<S>)
    requires |items| > 0
    ensures var it := items[|items| - 1];
            FoundKeys(items, messages, interp)
            == FoundKeys(items[..|items| - 1], messages, interp) + (if it.messageId in messages then {KeyOf(it, interp)} else {})
  {
    var n := |items| - 1;
    var init := items[..n];
    assert forall i :: 0 <= i < n ==> init[i] == items[i];
    forall x | x in FoundKeys(items, messages, interp)
      ensures x in FoundKeys(init, messages, interp) + (if items[n].messageId in messages then {KeyOf(items[n], interp)} else {})
    {
      var i :| 0 <= i < |items| && items[i].messageId in messages && KeyOf(items[i], interp) == x;
      if i < n {
        assert init[i].messageId in messages && KeyOf(init[i], interp) == x;
      }
    }
  }

  /** The grouping has a display name and a bucket for exactly the keys of the
      items whose message was fetched, whether or not their content parses. */
  lemma {:induction false} GroupKeys<S>(items: seq<Item>, messages: map<string, Message>, interp: Interp<S>)
    ensures Group(items, messages, interp).ruleNames.Keys == FoundKeys(items, messages, interp)
    ensures Group(items, messages, interp).buckets.Keys == FoundKeys(items, messages, interp)
    decreases |items|
  {
    if |items| > 0 {
      GroupKeys(items[..|items| - 1], messages, interp);
      FoundKeysStep(items, messages, interp);
    }
  }

  /** Each bucket holds, in item order, one entry per fetched item with its
      key whose content parses. */
  lemma {:induction false} GroupBuckets<S>(items: seq<Item>, messages: map<string, Message>, interp: Interp<S>)
    ensures forall k :: k in Group(items, messages, interp).buckets ==>
              Group(items, messages, interp).buckets[k] == BucketOf(items, k, messages, interp)
    decreases |items|
  {
    if |items| > 0 {
      var init := items[..|items| - 1];
      GroupBuckets(init, messages, interp);
      GroupKeys(init, messages, interp);
      var it := items[|items| - 1];
      if it.messageId in messages {
        var key := KeyOf(it, interp);
        if key !in Group(init, messages, interp).buckets {
          BucketOfAbsent(init, key, messages, interp);
        }
      }
    }
  }

  /** A key no fetched item has gets an empty bucket. */
  lemma {:induction false} BucketOfAbsent<S>(items: seq<Item>, key: string, messages: map<string, Message>, interp: Interp<S>)
    requires key !in FoundKeys(items, messages, interp)
    ensures BucketOf(items, key, messages, interp) == []
    decreases |items|
  {
    if |items| > 0 {
      FoundKeysStep(items, messages, interp);
      BucketOfAbsent(items[..|items| - 1], key, messages, interp);
    }
  }

  /** The display name of a key is the rule name of the first fetched item
      with that key. */
  lemma {:induction false} GroupNames<S>(items: seq<Item>, messages: map<string, Message>, interp: Interp<S>)
    ensures forall i :: 0 <= i < |items| && FirstOfKey(items, i, messages, interp) ==>
              KeyOf(items[i], interp) in Group(items, messages, interp).ruleNames
              && Group(items, messages, interp).ruleNames[KeyOf(items[i], interp)] == RuleNameOf(items[i])
    decreases |items|
  {
    if |items| > 0 {
      var n := |items| - 1;
      var init := items[..n];
      var it := items[n];
      GroupNames(init, messages, interp);
      GroupKeys(init, messages, interp);
      assert forall i :: 0 <= i < n ==> init[i] == items[i];
      var before := Group(init, messages, interp);
      var after := Group(items, messages, interp);
      forall i | 0 <= i < |items| && FirstOfKey(items, i, messages, interp)
        ensures KeyOf(items[i], interp) in after.ruleNames && after.ruleNames[KeyOf(items[i], interp)] == RuleNameOf(items[i])
      {
        if i < n {
          assert FirstOfKey(init, i, messages, interp);
          assert init[i].messageId in messages;
          assert KeyOf(init[i], interp) in FoundKeys(init, messages, interp);
        }
      }
    }
  }

  /** Whether an item is filed as an entry: its message was fetched and its
      content parses. */
  predicate Filed<S>(it: Item, messages: map<string, Message>, interp: Interp<S>) {
    it.messageId in messages && interp.parse(it.content).Some?
  }

  /** The number of filed items whose key is one of `ks`. */
  function CountIn<S>(items: seq<Item>, ks: seq<string>, messages: map<string, Message>, interp: Interp<S>): (n: nat)
    ensures n <= |items|
    decreases |items|
  {
    if |items| == 0 then 0
    else
      var it := items[|items| - 1];
      CountIn(items[..|items| - 1], ks, messages, interp) + (if Filed(it, messages, interp) && KeyOf(it, interp) in ks then 1 else 0)
  }

  /** The number of filed items. */
  function FiledCount<S>(items: seq<Item>, messages: map<string, Message>, interp: Interp<S>): (n: nat)
    ensures n <= |items|
    decreases |items|
  {
    if |items| == 0 then 0
    else FiledCount(items[..|items| - 1], messages, interp) + (if Filed(items[|items| - 1], messages, interp) then 1 else 0)
  }

  /** The total size of the buckets of `m` named by `ks`. */
  function SumSizes<T>(m: map<string, seq<T>>, ks: seq<string>): nat
    requires forall j :: 0 <= j < |ks| ==> ks[j] in m
  {
    if |ks| == 0 then 0 else SumSizes(m, ks[..|ks| - 1]) + |m[ks[|ks| - 1]]|
  }

  lemma {:induction false} CountInNone<S>(items: seq<Item>, messages: map<string, Message>, interp: Interp<S>)
    ensures CountIn(items, [], messages, interp) == 0
    decreases |items|
  {
    if |items| > 0 {
      CountInNone(items[..|items| - 1], messages, interp);
    }
  }

  /** Adding a new key to `ks` adds the size of that key's bucket. */
  lemma {:induction false} CountInAdd<S>(items: seq<Item>, ks: seq<string>, k: string, messages: map<string, Message>, interp: Interp<S>)
    requires k !in ks
    ensures CountIn(items, ks + [k], messages, interp) == CountIn(items, ks, messages, interp) + |BucketOf(items, k, messages, interp)|
    decreases |items|
  {
    if |items| > 0 {
      CountInAdd(items[..|items| - 1], ks, k, messages, interp);
    }
  }

  /** Once `ks` holds every found key, every filed item is counted. */
  lemma {:induction false} CountInAll<S>(items: seq<Item>, ks: seq<string>, messages: map<string, Message>, interp: Interp<S>)
    requires forall k :: k in FoundKeys(items, messages, interp) ==> k in ks
    ensures CountIn(items, ks, messages, interp) == FiledCount(items, messages, interp)
    decreases |items|
  {
    if |items| > 0 {
      FoundKeysStep(items, messages, interp);
      CountInAll(items[..|items| - 1], ks, messages, interp);
    }
  }

  /** The buckets named by distinct keys hold together exactly the filed
      items with those keys. */
  lemma {:induction false} SumOfBuckets<S>(items: seq<Item>, ks: seq<string>, messages: map<string, Message>, interp: Interp<S>)
    requires Distinct(ks)
    requires forall j :: 0 <= j < |ks| ==> ks[j] in Group(items, messages, interp).buckets
    ensures SumSizes(Group(items, messages, interp).buckets, ks) == CountIn(items, ks, messages, interp)
    decreases |ks|
  {
    if |ks| == 0 {
      CountInNone(items, messages, interp);
    } else {
      var init := ks[..|ks| - 1];
      var k := ks[|ks| - 1];
      assert ks == init + [k];
      SumOfBuckets(items, init, messages, interp);
      GroupBuckets(items, messages, interp);
      CountInAdd(items, init, k, messages, interp);
    }
  }

  /** No item is filed twice: listing the bucket keys once each, the buckets
      hold together exactly one entry per fetched item whose content parses,
      so never more entries than items. */
  lemma BucketsBounded<S>(items: seq<Item>, ks: seq<string>, messages: map<string, Message>, interp: Interp<S>)
    requires Distinct(ks)
    requires forall k :: k in Group(items, messages, interp).buckets <==> k in ks
    ensures SumSizes(Group(items, messages, interp).buckets, ks) == FiledCount(items, messages, interp)
    ensures FiledCount(items, messages, interp) <= |items|
  {
    SumOfBuckets(items, ks, messages, interp);
    GroupKeys(items, messages, interp);
    CountInAll(items, ks, messages, interp);
  }

  /** An item whose message was not fetched changes nothing. */
  lemma MissingMessageSkipped<S>(items: seq<Item>, it: Item, messages: map<string, Message>, interp: Interp<S>)
    requires it.messageId !in messages
    ensures Group(items + [it], messages, interp) == Group(items, messages, interp)
  {
    assert (items + [it])[..|items|] == items;
  }

  /** An item whose message was fetched but whose content does not parse
      still opens its bucket and names it, but adds no entry. */
  lemma UnparsedItemOpensBucket<S>(items: seq<Item>, it: Item, messages: map<string, Message>, interp: Interp<S>)
    requires it.messageId in messages
    requires interp.parse(it.content).None?
    ensures var g := Group(items + [it], messages, interp);
            var before := Group(items, messages, interp);
            var key := KeyOf(it, interp);
            && key in g.buckets && key in g.ruleNames
            && g.buckets[key] == (if key in before.buckets then before.buckets[key] else [])
  {
    assert (items + [it])[..|items|] == items;
  }

  // ---------------------------------------------------------------------
  // The accumulator as written: a plain object
  // ---------------------------------------------------------------------

  /** Keys a plain `{}` inherits from `Object.prototype` that a camel-cased
      rule name can produce; `acc[key]` reads a (truthy) function for them. */
  const InheritedKeys: set<string> :=
    {"constructor", "toString", "toLocaleString", "valueOf", "hasOwnProperty", "isPrototypeOf", "propertyIsEnumerable"}

  /** One step of the `reduce` over a plain-object accumulator (`None` once a
      step has thrown). For an inherited key `!acc[key]` is false, so no bucket
      is created, and the `push` onto the inherited function throws; an item
      whose content does not parse returns before the `push`. */
  function StepAsWritten<S>(g: Option<Grouping<S>>, it: Item, messages: map<string, Message>, interp: Interp<S>): Option<Grouping<S>>
  {
    match g
    case None => None
    case Some(acc) =>
      var key := KeyOf(it, interp);
      if it.messageId !in messages || key in acc.buckets || key !in InheritedKeys then Some(Step(acc, it, messages, interp))
      else
        var names := if key in acc.ruleNames then acc.ruleNames else acc.ruleNames[key := RuleNameOf(it)];
        if interp.parse(it.content).None? then Some(Grouping(names, acc.buckets)) else None
  }

  /** The fold of `StepAsWritten` from an empty object. */
  function GroupAsWritten<S>(items: seq<Item>, messages: map<string, Message>, interp: Interp<S>): Option<Grouping<S>>
    decreases |items|
  {
    if |items| == 0 then Some(Grouping(map[], map[]))
    else StepAsWritten(GroupAsWritten(items[..|items| - 1], messages, interp), items[|items| - 1], messages, interp)
  }

  /** When no fetched item's key is an inherited one, the plain-object grouping
      is the map-based grouping `Group`. */
  lemma {:induction false} GroupAsWrittenAgrees<S>(items: seq<Item>, messages: map<string, Message>, interp: Interp<S>)
    requires forall k :: k in FoundKeys(items, messages, interp) ==> k !in InheritedKeys
    ensures GroupAsWritten(items, messages, interp) == Some(Group(items, messages, interp))
    decreases |items|
  {
    if |items| > 0 {
      FoundKeysStep(items, messages, interp);
      GroupAsWrittenAgrees(items[..|items| - 1], messages, interp);
    }
  }

  /** A rule whose name camel-cases to "constructor" (a rule called
      "Constructor") makes the plain-object grouping throw on the first of its
      items that parses, while the map-based grouping files the item. */
  lemma InheritedKeyThrows<S>(interp: Interp<S>)
    requires interp.normalise("Constructor") == "constructor"
    requires interp.parse("{}").Some?
    ensures var it := Item("m1", "{}", Some("Constructor"));
            var messages := map["m1" := Message("m1", None, None)];
            && GroupAsWritten([it], messages, interp) == None
            && "constructor" in Group([it], messages, interp).buckets
            && |Group([it], messages, interp).buckets["constructor"]| == 1
  {
    var it := Item("m1", "{}", Some("Constructor"));
    var messages := map["m1" := Message("m1", None, None)];
    assert [it][..0] == [];
    assert RuleNameOf(it) == "Constructor";
  }

  /** Some fetched item with an inherited key has content that parses. */
  predicate Throws<S>(items: seq<Item>, messages: map<string, Message>, interp: Interp<S>) {
    exists i :: 0 <= i < |items| && Filed(items[i], messages, interp) && KeyOf(items[i], interp) in InheritedKeys
  }

  /** The plain-object grouping throws exactly when a fetched item with an
      inherited key has parseable content; otherwise no inherited key ever
      gets a bucket. */
  lemma {:induction false} GroupAsWrittenThrows<S>(items: seq<Item>, messages: map<string, Message>, interp: Interp<S>)
    ensures GroupAsWritten(items, messages, interp).None? <==> Throws(items, messages, interp)
    ensures GroupAsWritten(items, messages, interp).Some? ==>
              forall k :: k in GroupAsWritten(items, messages, interp).value.buckets ==> k !in InheritedKeys
    decreases |items|
  {
    if |items| > 0 {
      var n := |items| - 1;
      var init := items[..n];
      var it := items[n];
      GroupAsWrittenThrows(init, messages, interp);
      assert forall i :: 0 <= i < n ==> init[i] == items[i];
      if Throws(init, messages, interp) {
        var i :| 0 <= i < n && Filed(init[i], messages, interp) && KeyOf(init[i], interp) in InheritedKeys;
        assert Filed(items[i], messages, interp) && KeyOf(items[i], interp) in InheritedKeys;
      }
    }
  }
}

=== FILE: digest_run.dfy ===
/** One run of the digest job for one email account (`sendEmail` in
    apps/web/app/api/resend/digest/route.ts), over an abstract store of
    accounts, schedules and digest records. Provider, mail and database
    failures are inputs; the result is the response, the store afterwards,
    and what was handed to the provider and the mailer. */
module DigestRun {
  import opened Wrappers
  import opened JsStrings
  import opened Batching
  import opened DigestGrouping

  /** The life cycle of a digest record. */
  datatype Status = Pending | Processing | Sent | Failed

  /** A digest record: its account, status, items and the time it was sent. */
  datatype Digest = Digest(accountId: string, status: Status, items: seq<Item>, sentAt: Option<int>)

  /** An account's digest schedule; times are abstract instants. */
  datatype Schedule = Schedule(id: string, lastOccurrenceAt: Option<int>, nextOccurrenceAt: Option<int>)

  datatype Account = Account(email: string)

  /** The tables the job reads and writes: accounts by id, schedules by
      account id, digests by id. */
  datatype Store = Store(accounts: map<string, Account>, schedules: map<string, Schedule>, digests: map<string, Digest>)

  /** The digest email handed to the mailer: recipient, display name per
      rule key, and the entries per rule key. */
  datatype DigestEmail<S> = DigestEmail(to: string, ruleNames: map<string, string>, buckets: map<string, seq<DigestEntry<S>>>)

  /** The outside world of one run. `fetch` is the provider's
      `getMessagesBatch` (`None` when it throws); `tokenIssued`, `delivers`
      and `commits` say whether the unsubscribe token, the mail and the final
      transaction succeed; `now` is the current instant and
      `nextOccurrence` stands for `calculateNextScheduleDate`. */
  datatype Services<!S> = Services(
    fetch: seq<string> -> Option<seq<Message>>,
    interp: Interp<S>,
    tokenIssued: bool,
    delivers: DigestEmail<S> -> bool,
    commits: bool,
    now: int,
    nextOccurrence: Schedule -> int)

  /** The job's value when it returns normally. */
  datatype Response = Response(success: bool, message: string)

  /** A run: the result (a thrown error is a `Failure`), the store after the
      status update to PROCESSING, the store at the end, the email handed to
      the mailer, the provider calls made and the pauses taken. */
  datatype Run<S> = Run(
    result: Result<Response>,
    interim: Store,
    store: Store,
    email: Option<DigestEmail<S>>,
    calls: seq<seq<string>>,
    pauses: nat)

  const AccountNotFound := "Email account not found"
  const NothingToProcess := "No digests to process"
  const SentMessage := "Digest email sent successfully"
  const SendFailed := "Error sending digest email"
  const Redacted := "[REDACTED]"

  /** A digest of `accountId` that is waiting to be sent. */
  predicate IsPendingFor(s: Store, accountId: string, id: string) {
    id in s.digests && s.digests[id].accountId == accountId && s.digests[id].status == Pending
  }

  /** The pending digests of an account, in the order the database returns
      its rows (`rowOrder`; the query fixes no order). */
  function PendingDigests(s: Store, accountId: string, rowOrder: seq<string>): (r: seq<PendingDigest>)
    ensures forall d :: d in r ==> d.id in rowOrder && IsPendingFor(s, accountId, d.id) && d.items == s.digests[d.id].items
  {
    if |rowOrder| == 0 then []
    else
      var id := rowOrder[0];
      var rest := PendingDigests(s, accountId, rowOrder[1..]);
      if IsPendingFor(s, accountId, id) then [PendingDigest(id, s.digests[id].items)] + rest else rest
  }

  /** The ids of some digests. */
  function IdSet(ds: seq<PendingDigest>): set<string> {
    set d | d in ds :: d.id
  }

  /** The digests read are exactly the account's pending ones among the rows,
      and none are read exactly when there are none. */
  lemma {:induction false} PendingDigestsSpec(s: Store, accountId: string, rowOrder: seq<string>)
    ensures forall id :: id in IdSet(PendingDigests(s, accountId, rowOrder)) <==> id in rowOrder && IsPendingFor(s, accountId, id)
    ensures IdSet(PendingDigests(s, accountId, rowOrder)) == {} <==> |PendingDigests(s, accountId, rowOrder)| == 0
  {
    var r := PendingDigests(s, accountId, rowOrder);
    if |rowOrder| > 0 {
      var id := rowOrder[0];
      var rest := PendingDigests(s, accountId, rowOrder[1..]);
      PendingDigestsSpec(s, accountId, rowOrder[1..]);
      assert rowOrder == [id] + rowOrder[1..];
      if IsPendingFor(s, accountId, id) {
        assert r == [PendingDigest(id, s.digests[id].items)] + rest;
        assert IdSet(r) == {id} + IdSet(rest);
      } else {
        assert IdSet(r) == IdSet(rest);
      }
    }
    if |r| > 0 {
      assert r[0].id in IdSet(r);
    }
  }

  /** The rows the pending-digest query scans: every digest id once, in the
      order the database returns them. */
  predicate RowsOf(s: Store, rowOrder: seq<string>) {
    Distinct(rowOrder) && forall id :: id in s.digests ==> id in rowOrder
  }

  /** The ids of the account's PENDING digests. */
  function PendingIds(s: Store, accountId: string): set<string> {
    set id | id in s.digests && IsPendingFor(s, accountId, id)
  }

  /** No digest occurs twice. */
  predicate DistinctIds(ds: seq<PendingDigest>) {
    forall i, j :: 0 <= i < j < |ds| ==> ds[i].id != ds[j].id
  }

  /** Rows that never repeat give digests that never repeat. */
  lemma {:induction false} PendingReadOnce(s: Store, accountId: string, rowOrder: seq<string>)
    requires Distinct(rowOrder)
    ensures DistinctIds(PendingDigests(s, accountId, rowOrder))
    decreases |rowOrder|
  {
    if |rowOrder| > 0 {
      var id := rowOrder[0];
      var tail := rowOrder[1..];
      assert Distinct(tail) by {
        forall i, j | 0 <= i < j < |tail|
          ensures tail[i] != tail[j]
        {
          assert tail[i] == rowOrder[i + 1] && tail[j] == rowOrder[j + 1];
        }
      }
      PendingReadOnce(s, accountId, tail);
      var rest := PendingDigests(s, accountId, tail);
      if IsPendingFor(s, accountId, id) {
        var r := PendingDigests(s, accountId, rowOrder);
        assert r == [PendingDigest(id, s.digests[id].items)] + rest;
        forall j | 0 <= j < |rest|
          ensures rest[j].id != id
        {
          assert rest[j] in rest;
          var k :| 0 <= k < |tail| && tail[k] == rest[j].id;
          assert tail[k] == rowOrder[k + 1];
        }
        forall i, j | 0 <= i < j < |r|
          ensures r[i].id != r[j].id
        {
          assert r[j] == rest[j - 1];
          if i > 0 {
            assert r[i] == rest[i - 1];
            assert rest[i - 1].id != rest[j - 1].id;
          } else {
            assert r[0].id == id;
          }
        }
      } else {
        assert PendingDigests(s, accountId, rowOrder) == rest;
      }
    }
  }

  /** Over rows that list every digest once, the run reads every PENDING
      digest of the account, each exactly once, and nothing else. */
  lemma AllPendingReadOnce(s: Store, accountId: string, rowOrder: seq<string>)
    requires RowsOf(s, rowOrder)
    ensures IdSet(PendingDigests(s, accountId, rowOrder)) == PendingIds(s, accountId)
    ensures DistinctIds(PendingDigests(s, accountId, rowOrder))
  {
    PendingDigestsSpec(s, accountId, rowOrder);
    PendingReadOnce(s, accountId, rowOrder);
  }

  /** `digest.updateMany({ where: { id: { in: ids } }, data: { status } })`. */
  function SetStatus(digests: map<string, Digest>, ids: set<string>, status: Status): (r: map<string, Digest>)
    ensures r.Keys == digests.Keys
    ensures forall id :: id in digests && id in ids ==> r[id] == digests[id].(status := status)
    ensures forall id :: id in digests && id !in ids ==> r[id] == digests[id]
  {
    map id | id in digests :: if id in ids then digests[id].(status := status) else digests[id]
  }

  /** Every item's content replaced by the redaction marker. */
  function Redact(items: seq<Item>): (r: seq<Item>)
    ensures |r| == |items|
    ensures forall i :: 0 <= i < |r| ==> r[i] == items[i].(content := Redacted)
  {
    seq(|items|, i requires 0 <= i < |items| => items[i].(content := Redacted))
  }

  /** The final transaction: the account's schedule (if any) records this
      occurrence and the next; the processed digests become SENT at `now`
      and their items are redacted. */
  function Commit(s: Store, accountId: string, ids: set<string>, now: int, next: Schedule -> int): (r: Store)
    ensures r.accounts == s.accounts
    ensures r.digests.Keys == s.digests.Keys
    ensures forall id :: id in s.digests && id !in ids ==> r.digests[id] == s.digests[id]
    ensures forall id :: id in s.digests && id in ids ==>
              && r.digests[id].accountId == s.digests[id].accountId
              && r.digests[id].status == Sent
              && r.digests[id].sentAt == Some(now)
              && r.digests[id].items == Redact(s.digests[id].items)
    ensures r.schedules.Keys == s.schedules.Keys
    ensures forall a :: a in s.schedules && a != accountId ==> r.schedules[a] == s.schedules[a]
    ensures accountId in s.schedules ==>
              r.schedules[accountId] == s.schedules[accountId].(lastOccurrenceAt := Some(now), nextOccurrenceAt := Some(next(s.schedules[accountId])))
  {
    var schedules :=
      if accountId in s.schedules
      then s.schedules[accountId := s.schedules[accountId].(lastOccurrenceAt := Some(now), nextOccurrenceAt := Some(next(s.schedules[accountId])))]
      else s.schedules;
    var digests := map id | id in s.digests ::
      if id in ids then s.digests[id].(status := Sent, sentAt := Some(now), items := Redact(s.digests[id].items))
      else s.digests[id];
    Store(s.accounts, schedules, digests)
  }

  /** The store after the pending digests are marked PROCESSING; the update
      is skipped when there are none. */
  function Marked(s: Store, pending: seq<PendingDigest>): Store {
    if |pending| > 0 then s.(digests := SetStatus(s.digests, IdSet(pending), Processing)) else s
  }

  /** The store after the error handler marks the digests FAILED. */
  function MarkedFailed(s: Store, ids: set<string>): Store {
    s.(digests := SetStatus(s.digests, ids, Failed))
  }

  /** `sendEmail({ emailAccountId, force })`. The items are grouped as the
      source does, over a plain object, so an inherited rule key makes the
      grouping throw into the error handler. */
  function SendEmail<S>(s: Store, accountId: string, force: bool, rowOrder: seq<string>, env: Services<S>): (r: Run<S>)
    ensures r.result == Failure(AccountNotFound) <==> accountId !in s.accounts
    ensures r.result.Failure? && accountId in s.accounts ==> r.result.error == SendFailed
    ensures r.result.Success? ==> r.result.value.success && r.email.None? == (r.result.value.message == NothingToProcess)
    ensures r.pauses == PausesBetween(|r.calls|)
    ensures accountId !in s.accounts ==> r.store == s && r.calls == []
  {
    if accountId !in s.accounts then Run(Failure(AccountNotFound), s, s, None, [], 0)
    else
      var pending := PendingDigests(s, accountId, rowOrder);
      var ids := IdSet(pending);
      var marked := Marked(s, pending);
      if |pending| == 0 && !force then Run(Success(Response(true, NothingToProcess)), marked, marked, None, [], 0)
      else
        var batches := Batches(MessageIds(pending), BatchSize);
        var calls := Attempted(batches, env.fetch);
        var pauses := PausesBetween(|calls|);
        var failed := MarkedFailed(marked, ids);
        match FetchAll(batches, env.fetch)
        case None => Run(Failure(SendFailed), marked, failed, None, calls, pauses)
        case Some(messages) =>
          if !env.tokenIssued then Run(Failure(SendFailed), marked, failed, None, calls, pauses)
          else
            match GroupAsWritten(AllItems(pending), MessageMap(messages), env.interp)
            case None => Run(Failure(SendFailed), marked, failed, None, calls, pauses)
            case Some(g) =>
              var email := DigestEmail(s.accounts[accountId].email, g.ruleNames, g.buckets);
              if !env.delivers(email) || !env.commits then Run(Failure(SendFailed), marked, failed, Some(email), calls, pauses)
              else
                Run(Success(Response(true, SentMessage)), marked, Commit(marked, accountId, ids, env.now, env.nextOccurrence), Some(email), calls, pauses)
  }

  // ---------------------------------------------------------------------
  // Properties of a run
  // ---------------------------------------------------------------------

  /** The allowed moves of a digest's status in one write: stay, or
      PENDING to PROCESSING, or PROCESSING to SENT or FAILED. */
  predicate StatusStep(a: Status, b: Status) {
    a == b || (a == Pending && b == Processing) || (a == Processing && (b == Sent || b == Failed))
  }

  /** The ids a run may touch: the account's pending digests as read. */
  function Processed(s: Store, accountId: string, rowOrder: seq<string>): set<string> {
    IdSet(PendingDigests(s, accountId, rowOrder))
  }

  /** How a run for a known account ends: with nothing to process, as a
      failure that marks the digests FAILED, or as a committed send. */
  lemma Outcome<S>(s: Store, accountId: string, force: bool, rowOrder: seq<string>, env: Services<S>)
    requires accountId in s.accounts
    ensures var r := SendEmail(s, accountId, force, rowOrder, env);
            var pending := PendingDigests(s, accountId, rowOrder);
            && r.interim == Marked(s, pending)
            && (|| (r.result == Success(Response(true, NothingToProcess)) && r.store == r.interim && |pending| == 0 && !force)
                || (r.result == Failure(SendFailed) && r.store == MarkedFailed(r.interim, IdSet(pending)))
                || (r.result == Success(Response(true, SentMessage)) && r.store == Commit(r.interim, accountId, IdSet(pending), env.now, env.nextOccurrence)))
  {
  }

  /** An unknown account is an error and changes nothing. */
  lemma UnknownAccount<S>(s: Store, accountId: string, force: bool, rowOrder: seq<string>, env: Services<S>)
    requires accountId !in s.accounts
    ensures var r := SendEmail(s, accountId, force, rowOrder, env);
            r.result == Failure(AccountNotFound) && r.store == s && r.email.None? && r.calls == []
  {
  }

  /** With no pending digest among the rows and `force` unset, the run
      succeeds with "No digests to process", calls no provider and writes nothing. */
  lemma NothingPending<S>(s: Store, accountId: string, rowOrder: seq<string>, env: Services<S>)
    requires accountId in s.accounts
    requires forall id :: id in rowOrder ==> !IsPendingFor(s, accountId, id)
    ensures var r := SendEmail(s, accountId, false, rowOrder, env);
            && r.result == Success(Response(true, NothingToProcess))
            && r.store == s && r.email.None? && r.calls == [] && r.pauses == 0
  {
    PendingDigestsSpec(s, accountId, rowOrder);
    assert IdSet(PendingDigests(s, accountId, rowOrder)) == {};
  }

  /** When `createUnsubscribeToken` throws, nothing is mailed: the run either
      had nothing to process or fails with every digest read marked FAILED. */
  lemma TokenFailureSendsNothing<S>(s: Store, accountId: string, force: bool, rowOrder: seq<string>, env: Services<S>)
    requires accountId in s.accounts
    requires !env.tokenIssued
    ensures var r := SendEmail(s, accountId, force, rowOrder, env);
            var pending := PendingDigests(s, accountId, rowOrder);
            && r.email.None?
            && (r.result == Success(Response(true, NothingToProcess)) || r.store == MarkedFailed(r.interim, IdSet(pending)))
            && r.result != Success(Response(true, SentMessage))
  {
  }

  /** With nothing pending and `force` set, an empty digest is still mailed
      without calling the provider; no digest record changes, and when all
      services succeed the run reports the digest as sent. */
  lemma ForcedEmptyDigest<S>(s: Store, accountId: string, rowOrder: seq<string>, env: Services<S>)
    requires accountId in s.accounts
    requires forall id :: id in rowOrder ==> !IsPendingFor(s, accountId, id)
    requires env.tokenIssued
    ensures var r := SendEmail(s, accountId, true, rowOrder, env);
            && r.email == Some(DigestEmail(s.accounts[accountId].email, map[], map[]))
            && r.calls == [] && r.pauses == 0
            && r.store.digests == s.digests
            && (env.delivers(r.email.value) && env.commits ==> r.result == Success(Response(true, SentMessage)))
  {
    PendingDigestsSpec(s, accountId, rowOrder);
    var pending := PendingDigests(s, accountId, rowOrder);
    assert IdSet(pending) == {};
    assert MessageIds(pending) == [];
    assert AllItems(pending) == [];
    var r := SendEmail(s, accountId, true, rowOrder, env);
    Outcome(s, accountId, true, rowOrder, env);
    assert r.store.digests == s.digests;
  }

  /** Only the digests read as pending are ever written: every other digest
      record, every account and every other account's schedule is left as it was. */
  lemma OnlyPendingTouched<S>(s: Store, accountId: string, force: bool, rowOrder: seq<string>, env: Services<S>)
    ensures var r := SendEmail(s, accountId, force, rowOrder, env);
            && r.store.digests.Keys == s.digests.Keys
            && r.store.accounts == s.accounts
            && r.store.schedules.Keys == s.schedules.Keys
            && (forall id :: id in s.digests && id !in Processed(s, accountId, rowOrder) ==> r.store.digests[id] == s.digests[id])
            && (forall a :: a in s.schedules && a != accountId ==> r.store.schedules[a] == s.schedules[a])
  {
    if accountId in s.accounts {
      Outcome(s, accountId, force, rowOrder, env);
    }
  }

  /** For a known account, every digest read as pending is PROCESSING while the run works, and
      each digest's status moves by allowed steps: from before the run to the
      interim store, and from the interim store to the end. */
  lemma StatusMachine<S>(s: Store, accountId: string, force: bool, rowOrder: seq<string>, env: Services<S>)
    ensures var r := SendEmail(s, accountId, force, rowOrder, env);
            && (accountId in s.accounts ==>
                  forall id :: id in Processed(s, accountId, rowOrder) ==> r.interim.digests[id].status == Processing)
            && (forall id :: id in s.digests ==>
                  && id in r.interim.digests && id in r.store.digests
                  && StatusStep(s.digests[id].status, r.interim.digests[id].status)
                  && StatusStep(r.interim.digests[id].status, r.store.digests[id].status))
  {
    PendingDigestsSpec(s, accountId, rowOrder);
    if accountId in s.accounts {
      Outcome(s, accountId, force, rowOrder, env);
    }
  }

  /** A successful send marks every processed digest SENT at `now` with all
      its items redacted, and records the occurrence on the account's
      schedule exactly when it has one. */
  lemma SuccessfulSend<S>(s: Store, accountId: string, force: bool, rowOrder: seq<string>, env: Services<S>)
    requires SendEmail(s, accountId, force, rowOrder, env).result == Success(Response(true, SentMessage))
    ensures var r := SendEmail(s, accountId, force, rowOrder, env);
            && r.email.Some?
            && (forall id :: id in Processed(s, accountId, rowOrder) ==>
                  && r.store.digests[id].status == Sent
                  && r.store.digests[id].sentAt == Some(env.now)
                  && |r.store.digests[id].items| == |s.digests[id].items|
                  && (forall j :: 0 <= j < |s.digests[id].items| ==>
                        r.store.digests[id].items[j] == s.digests[id].items[j].(content := Redacted)))
            && (accountId in s.schedules ==>
                  r.store.schedules[accountId] == s.schedules[accountId].(
                    lastOccurrenceAt := Some(env.now),
                    nextOccurrenceAt := Some(env.nextOccurrence(s.schedules[accountId]))))
  {
    PendingDigestsSpec(s, accountId, rowOrder);
    Outcome(s, accountId, force, rowOrder, env);
  }

  /** A failure after the account is found marks every processed digest
      FAILED, keeps its items and leaves the schedules as they were. */
  lemma FailedSend<S>(s: Store, accountId: string, force: bool, rowOrder: seq<string>, env: Services<S>)
    requires accountId in s.accounts
    requires SendEmail(s, accountId, force, rowOrder, env).result.Failure?
    ensures var r := SendEmail(s, accountId, force, rowOrder, env);
            && r.result == Failure(SendFailed)
            && r.store.schedules == s.schedules
            && (forall id :: id in Processed(s, accountId, rowOrder) ==>
                  r.store.digests[id] == s.digests[id].(status := Failed))
  {
    PendingDigestsSpec(s, accountId, rowOrder);
    Outcome(s, accountId, force, rowOrder, env);
  }

  /** The provider is called with consecutive batches of at most 100 of the
      pending items' message ids; when every call succeeds they cover all the
      ids in order, and there is no call when there are no ids. */
  lemma ProviderCalls<S>(s: Store, accountId: string, force: bool, rowOrder: seq<string>, env: Services<S>)
    ensures var r := SendEmail(s, accountId, force, rowOrder, env);
            var ids := MessageIds(PendingDigests(s, accountId, rowOrder));
            && r.calls <= Batches(ids, BatchSize)
            && (forall i :: 0 <= i < |r.calls| ==> 0 < |r.calls[i]| <= BatchSize)
            && r.pauses == PausesBetween(|r.calls|)
            && (r.email.Some? ==> Flatten(r.calls) == ids)
            && (|ids| == 0 ==> r.calls == [])
  {
    var ids := MessageIds(PendingDigests(s, accountId, rowOrder));
    BatchesSpec(ids, BatchSize);
    AttemptedSpec(Batches(ids, BatchSize), env.fetch);
  }

  /** The mailed digest groups the pending items by rule key: when no
      fetched item's key is an inherited one, its names and buckets are
      exactly those of the grouping over the fetched messages. */
  lemma EmailContents<S>(s: Store, accountId: string, force: bool, rowOrder: seq<string>, env: Services<S>)
    requires SendEmail(s, accountId, force, rowOrder, env).email.Some?
    requires var pending := PendingDigests(s, accountId, rowOrder);
             var fetched := FetchAll(Batches(MessageIds(pending), BatchSize), env.fetch);
             fetched.Some? ==>
               forall k :: k in FoundKeys(AllItems(pending), MessageMap(fetched.value), env.interp) ==> k !in InheritedKeys
    ensures var r := SendEmail(s, accountId, force, rowOrder, env);
            var pending := PendingDigests(s, accountId, rowOrder);
            var batches := Batches(MessageIds(pending), BatchSize);
            && FetchAll(batches, env.fetch).Some?
            && var messages := MessageMap(FetchAll(batches, env.fetch).value);
               && r.email.value.to == s.accounts[accountId].email
               && r.email.value.ruleNames.Keys == FoundKeys(AllItems(pending), messages, env.interp)
               && r.email.value.buckets.Keys == FoundKeys(AllItems(pending), messages, env.interp)
               && (forall k :: k in r.email.value.buckets ==>
                     r.email.value.buckets[k] == BucketOf(AllItems(pending), k, messages, env.interp))
               && (forall i :: 0 <= i < |AllItems(pending)| && FirstOfKey(AllItems(pending), i, messages, env.interp) ==>
                     r.email.value.ruleNames[KeyOf(AllItems(pending)[i], env.interp)] == RuleNameOf(AllItems(pending)[i]))
               && var g := Group(AllItems(pending), messages, env.interp);
                  r.email.value == DigestEmail(s.accounts[accountId].email, g.ruleNames, g.buckets)
  {
    var pending := PendingDigests(s, accountId, rowOrder);
    var batches := Batches(MessageIds(pending), BatchSize);
    var messages := MessageMap(FetchAll(batches, env.fetch).value);
    GroupAsWrittenAgrees(AllItems(pending), messages, env.interp);
    GroupKeys(AllItems(pending), messages, env.interp);
    GroupBuckets(AllItems(pending), messages, env.interp);
    GroupNames(AllItems(pending), messages, env.interp);
  }

  /** A fetched item whose rule key is inherited and whose content parses
      fails the whole run: no mail is sent, the error is "Error sending
      digest email", and every digest read is left FAILED. */
  lemma InheritedKeyFailsRun<S>(s: Store, accountId: string, force: bool, rowOrder: seq<string>, env: Services<S>)
    requires accountId in s.accounts
    requires var pending := PendingDigests(s, accountId, rowOrder);
             var fetched := FetchAll(Batches(MessageIds(pending), BatchSize), env.fetch);
             fetched.Some? && Throws(AllItems(pending), MessageMap(fetched.value), env.interp)
    ensures var r := SendEmail(s, accountId, force, rowOrder, env);
            && r.result == Failure(SendFailed)
            && r.email.None?
            && (forall id :: id in Processed(s, accountId, rowOrder) ==> r.store.digests[id].status == Failed)
  {
    var pending := PendingDigests(s, accountId, rowOrder);
    var messages := MessageMap(FetchAll(Batches(MessageIds(pending), BatchSize), env.fetch).value);
    GroupAsWrittenThrows(AllItems(pending), messages, env.interp);
    PendingDigestsSpec(s, accountId, rowOrder);
  }

  /** Over rows that list every digest once, a run settles every PENDING
      digest of the account: all SENT when it reports the digest sent, all
      FAILED when it fails after finding the account. */
  lemma EveryPendingSettled<S>(s: Store, accountId: string, force: bool, rowOrder: seq<string>, env: Services<S>)
    requires accountId in s.accounts
    requires RowsOf(s, rowOrder)
    ensures var r := SendEmail(s, accountId, force, rowOrder, env);
            forall id :: id in PendingIds(s, accountId) ==>
              && (r.result == Success(Response(true, SentMessage)) ==> r.store.digests[id].status == Sent)
              && (r.result.Failure? ==> r.store.digests[id].status == Failed)
              && r.result != Success(Response(true, NothingToProcess))
  {
    AllPendingReadOnce(s, accountId, rowOrder);
    PendingDigestsSpec(s, accountId, rowOrder);
    Outcome(s, accountId, force, rowOrder, env);
  }
}

=== FILE: js_strings.dfy ===
/** The few JavaScript string behaviours the views and the digest job rely on:
    truthiness of optional strings, `a || b`, `Array.prototype.join`,
    `String.prototype.toLowerCase` and `String.prototype.replace` with a
    one-character string pattern. `Split` and `Distinct` are reference
    operations for stating properties; the code itself never splits. */
module JsStrings {
  import opened Wrappers

  /** JavaScript truthiness of a `string | null | undefined`: present and non-empty. */
  predicate Truthy(s: Option<string>) {
    s.Some? && s.value != ""
  }

  /** `a || b`: the first operand when it is truthy, otherwise the second. */
  function Or(a: Option<string>, b: Option<string>): (r: Option<string>)
    ensures Truthy(a) ==> r == a
    ensures !Truthy(a) ==> r == b
  {
    if Truthy(a) then a else b
  }

  /** `a || ""` on an optional string. */
  function OrEmpty(a: Option<string>): (r: string)
    ensures Truthy(a) ==> r == a.value
    ensures !Truthy(a) ==> r == ""
  {
    if Truthy(a) then a.value else ""
  }

  /** No string occurs twice. */
  predicate Distinct(xs: seq<string>) {
    forall i, j :: 0 <= i < j < |xs| ==> xs[i] != xs[j]
  }

  /** A text holding the separator character splits into at least two
      pieces. */
  lemma {:induction false} SplitAtOccurrence(s: string, c: char)
    requires c in s
    ensures |Split(s, c)| >= 2
    decreases |s|
  {
    if s[0] != c {
      SplitAtOccurrence(s[1..], c);
    }
  }

  /** `parts.join(sep)`. */
  function Join(parts: seq<string>, sep: string): string
  {
    if |parts| == 0 then ""
    else if |parts| == 1 then parts[0]
    else parts[0] + sep + Join(parts[1..], sep)
  }

  /** Splitting at every occurrence of one character, as `s.split(c)` does. */
  function Split(s: string, c: char): (r: seq<string>)
    ensures |r| >= 1
    decreases |s|
  {
    if |s| == 0 then [""]
    else
      var rest := Split(s[1..], c);
      if s[0] == c then [""] + rest
      else [[s[0]] + rest[0]] + rest[1..]
  }

  /** The joined text starts with the first part. */
  lemma {:induction false} JoinStartsWithFirst(parts: seq<string>, sep: string)
    requires |parts| >= 1
    ensures parts[0] <= Join(parts, sep)
  {
    if |parts| > 1 {
      assert Join(parts, sep) == parts[0] + (sep + Join(parts[1..], sep));
    }
  }

  /** A character of any part occurs in the joined text. */
  lemma {:induction false} JoinContains(parts: seq<string>, sep: string, k: nat, c: char)
    requires k < |parts| && c in parts[k]
    ensures c in Join(parts, sep)
    decreases |parts|
  {
    if |parts| > 1 {
      var rest := Join(parts[1..], sep);
      assert Join(parts, sep) == parts[0] + sep + rest;
      if k == 0 {
        var j :| 0 <= j < |parts[0]| && parts[0][j] == c;
        assert Join(parts, sep)[j] == c;
      } else {
        JoinContains(parts[1..], sep, k - 1, c);
        var j :| 0 <= j < |rest| && rest[j] == c;
        assert Join(parts, sep)[|parts[0]| + |sep| + j] == c;
      }
    }
  }

  /** A character that occurs neither in the separator nor in any part does
      not occur in the joined text. */
  lemma {:induction false} JoinAvoids(parts: seq<string>, sep: string, c: char)
    requires c !in sep
    requires forall i :: 0 <= i < |parts| ==> c !in parts[i]
    ensures c !in Join(parts, sep)
  {
    if |parts| > 1 {
      JoinAvoids(parts[1..], sep, c);
      var rest := Join(parts[1..], sep);
      assert Join(parts, sep) == parts[0] + sep + rest;
      forall k | 0 <= k < |Join(parts, sep)|
        ensures Join(parts, sep)[k] != c
      {
        if k < |parts[0]| {
          assert Join(parts, sep)[k] == parts[0][k];
        } else if k < |parts[0]| + |sep| {
          assert Join(parts, sep)[k] == sep[k - |parts[0]|];
        } else {
          assert Join(parts, sep)[k] == rest[k - |parts[0]| - |sep|];
        }
      }
    }
  }

  lemma {:induction false} SplitWithout(x: string, c: char)
    requires c !in x
    ensures Split(x, c) == [x]
    decreases |x|
  {
    if |x| > 0 {
      SplitWithout(x[1..], c);
      assert [x[0]] + x[1..] == x;
    }
  }

  lemma {:induction false} SplitAfterFirst(x: string, c: char, rest: string)
    requires c !in x
    ensures Split(x + [c] + rest, c) == [x] + Split(rest, c)
    decreases |x|
  {
    var s := x + [c] + rest;
    if |x| == 0 {
      assert s[1..] == rest;
    } else {
      assert s[1..] == x[1..] + [c] + rest;
      SplitAfterFirst(x[1..], c, rest);
      assert [x[0]] + x[1..] == x;
    }
  }

  /** Splitting at the separator character undoes the join, provided no
      part contains that character. */
  lemma {:induction false} SplitJoin(parts: seq<string>, c: char)
    requires |parts| >= 1
    requires forall i :: 0 <= i < |parts| ==> c !in parts[i]
    ensures Split(Join(parts, [c]), c) == parts
  {
    if |parts| == 1 {
      SplitWithout(parts[0], c);
    } else {
      SplitJoin(parts[1..], c);
      SplitAfterFirst(parts[0], c, Join(parts[1..], [c]));
      assert [parts[0]] + parts[1..] == parts;
    }
  }

  /** `toLowerCase` on one character, for the ASCII letters. */
  function LowerChar(ch: char): char
  {
    if 'A' <= ch <= 'Z' then (ch as int - 'A' as int + 'a' as int) as char else ch
  }

  /** `s.toLowerCase()`, for the ASCII letters. */
  function Lower(s: string): (r: string)
    ensures |r| == |s|
    ensures forall i :: 0 <= i < |s| ==> r[i] == LowerChar(s[i])
  {
    seq(|s|, i requires 0 <= i < |s| => LowerChar(s[i]))
  }

  /** The index of the first occurrence of `c` in `s`. */
  function FirstIndex(s: string, c: char): (i: nat)
    requires c in s
    ensures i < |s| && s[i] == c
    ensures c !in s[..i]
  {
    if s[0] == c then 0
    else
      assert c in s[1..] by { assert s == [s[0]] + s[1..]; }
      var j := FirstIndex(s[1..], c);
      assert s[..j + 1] == [s[0]] + s[1..][..j];
      j + 1
  }

  /** `s.replace(c, d)` with one-character string arguments: only the first
      occurrence of `c` is replaced. */
  function ReplaceFirst(s: string, c: char, d: char): (r: string)
    ensures |r| == |s|
    ensures c !in s ==> r == s
    ensures c in s ==> r == s[..FirstIndex(s, c)] + [d] + s[FirstIndex(s, c) + 1..]
  {
    if |s| == 0 then ""
    else if s[0] == c then [d] + s[1..]
    else
      var rest := ReplaceFirst(s[1..], c, d);
      assert c in s ==> c in s[1..] by { assert s == [s[0]] + s[1..]; }
      [s[0]] + rest
  }
}

=== FILE: rule_conditions.dfy ===
/** The conditions block of the "create rule" and "update rule conditions"
    tool cards: which condition kinds count, when the operator line between
    them appears, the static-condition lines, and the conditions `hasChanges`
    test (apps/web/components/assistant-chat/tools.tsx). */
module RuleConditions {
  import opened Wrappers
  import opened JsStrings

  /** Static matching on headers; each part may be a string, `null` or missing. */
  datatype StaticConditions = StaticConditions(from: Option<string>, to: Option<string>, subject: Option<string>)

  /** A rule's condition: free-text instructions for the AI, static header
      conditions, and the operator that joins them ("AND" or "OR"). */
  datatype Condition = Condition(
    aiInstructions: Option<string>,
    staticConditions: Option<StaticConditions>,
    conditionalOperator: Option<string>)

  /** The operator used when none is given. */
  const DefaultOperator := "AND"

  /** At least one of from, to and subject holds a truthy value. */
  predicate HasStaticValue(s: StaticConditions) {
    Truthy(s.from) || Truthy(s.to) || Truthy(s.subject)
  }

  /** `[a, b].filter(Boolean).length` for two operands given by their truthiness. */
  function CountTruthy(a: bool, b: bool): (n: nat)
    ensures n <= 2
    ensures n == 2 <==> a && b
    ensures n == 0 <==> !a && !b
  {
    (if a then 1 else 0) + (if b then 1 else 0)
  }

  /** The operator line shown between the conditions, given how many count. */
  function OperatorLine(count: nat, c: Condition): Option<string>
  {
    if count > 1 then Some(Or(c.conditionalOperator, Some(DefaultOperator)).value) else None
  }

  /** The operator line of the "create rule" card: the static block counts
      whenever it is present, even if all its parts are empty. */
  function CreatedRuleOperatorLine(c: Condition): (r: Option<string>)
    ensures r.Some? <==> Truthy(c.aiInstructions) && c.staticConditions.Some?
    ensures r.Some? ==> r.value == (if Truthy(c.conditionalOperator) then c.conditionalOperator.value else DefaultOperator)
  {
    OperatorLine(CountTruthy(Truthy(c.aiInstructions), c.staticConditions.Some?), c)
  }

  /** The static conditions the "update rule conditions" card counts: only a
      block with at least one truthy part. */
  function CountedStatic(c: Condition): (r: Option<StaticConditions>)
    ensures r.Some? <==> c.staticConditions.Some? && HasStaticValue(c.staticConditions.value)
    ensures r.Some? ==> r == c.staticConditions
  {
    if c.staticConditions.Some? && HasStaticValue(c.staticConditions.value) then c.staticConditions else None
  }

  /** The operator line of the "update rule conditions" card. */
  function UpdatedRuleOperatorLine(c: Condition): (r: Option<string>)
    ensures r.Some? <==> Truthy(c.aiInstructions) && c.staticConditions.Some? && HasStaticValue(c.staticConditions.value)
    ensures r.Some? ==> r.value == (if Truthy(c.conditionalOperator) then c.conditionalOperator.value else DefaultOperator)
  {
    OperatorLine(CountTruthy(Truthy(c.aiInstructions), CountedStatic(c).Some?), c)
  }

  /** Where the update card shows an operator line, the create card shows the
      same one; the converse fails only for a present but empty static block. */
  lemma OperatorLinesAgree(c: Condition)
    ensures UpdatedRuleOperatorLine(c).Some? ==> CreatedRuleOperatorLine(c) == UpdatedRuleOperatorLine(c)
    ensures CreatedRuleOperatorLine(c).Some? && UpdatedRuleOperatorLine(c).None? ==>
              c.staticConditions.Some? && !HasStaticValue(c.staticConditions.value)
  {
  }

  /** An instruction with an empty static block: an operator line on the
      create card, none on the update card. */
  lemma EmptyStaticBlockDiffers()
    ensures var c := Condition(Some("newsletters"), Some(StaticConditions(None, Some(""), None)), None);
            CreatedRuleOperatorLine(c) == Some("AND") && UpdatedRuleOperatorLine(c) == None
  {
  }

  /** A shown static condition: its caption and value. */
  datatype StaticLine = StaticLine(caption: string, value: string)

  /** The captions of the static parts, in display order. */
  const StaticCaptions: seq<string> := ["From", "To", "Subject"]

  /** The part of a static block a caption names. */
  function StaticPart(s: StaticConditions, caption: string): Option<string> {
    if caption == "From" then s.from
    else if caption == "To" then s.to
    else if caption == "Subject" then s.subject
    else None
  }

  /** The position of a caption in `StaticCaptions`. */
  function CaptionRank(caption: string): nat {
    if caption == "From" then 0 else if caption == "To" then 1 else 2
  }

  /** The list under "Static Conditions:": nothing when there is no static
      block, otherwise one line for each truthy part in the order From, To,
      Subject, with that part's caption and value. */
  function StaticLines(c: Condition): (r: Option<seq<StaticLine>>)
    ensures r.None? <==> c.staticConditions.None?
    ensures r.Some? ==> |r.value| <= 3
    ensures r.Some? ==> (|r.value| == 0 <==> !HasStaticValue(c.staticConditions.value))
    ensures r.Some? ==> forall i :: 0 <= i < |r.value| ==>
              && r.value[i].caption in StaticCaptions
              && r.value[i].value != ""
              && StaticPart(c.staticConditions.value, r.value[i].caption) == Some(r.value[i].value)
    ensures r.Some? ==> forall i, j :: 0 <= i < j < |r.value| ==> CaptionRank(r.value[i].caption) < CaptionRank(r.value[j].caption)
    ensures r.Some? ==> forall k :: 0 <= k < |StaticCaptions| ==>
              (Truthy(StaticPart(c.staticConditions.value, StaticCaptions[k])) <==>
                 exists i :: 0 <= i < |r.value| && r.value[i].caption == StaticCaptions[k])
  {
    match c.staticConditions
    case None => None
    case Some(s) =>
      StaticLinesCover(s);
      Some(StaticLinesOf(s))
  }

  /** The `<li>` list of a present static block. */
  function StaticLinesOf(s: StaticConditions): seq<StaticLine> {
    (if Truthy(s.from) then [StaticLine("From", s.from.value)] else [])
    + (if Truthy(s.to) then [StaticLine("To", s.to.value)] else [])
    + (if Truthy(s.subject) then [StaticLine("Subject", s.subject.value)] else [])
  }

  /** Each truthy part has its line. */
  lemma StaticLinesCover(s: StaticConditions)
    ensures forall k :: 0 <= k < |StaticCaptions| ==>
              (Truthy(StaticPart(s, StaticCaptions[k])) <==>
                 exists i :: 0 <= i < |StaticLinesOf(s)| && StaticLinesOf(s)[i].caption == StaticCaptions[k])
  {
    var ls := StaticLinesOf(s);
    assert StaticCaptions[0] == "From" && StaticCaptions[1] == "To" && StaticCaptions[2] == "Subject";
    if Truthy(s.from) {
      assert ls[0].caption == "From";
    }
    if Truthy(s.to) {
      var i := if Truthy(s.from) then 1 else 0;
      assert ls[i].caption == "To";
    }
    if Truthy(s.subject) {
      assert ls[|ls| - 1].caption == "Subject";
    }
  }

  /** The conditions `hasChanges`: both conditions present and their
      instructions differ. */
  predicate ConditionsChanged(original: Option<Condition>, updated: Option<Condition>) {
    original.Some? && updated.Some? && original.value.aiInstructions != updated.value.aiInstructions
  }

  /** Only the instructions are compared: a change of static conditions or of
      the operator alone is not reported, and the test is symmetric. */
  lemma ConditionsChangedSpec(original: Option<Condition>, updated: Option<Condition>)
    ensures ConditionsChanged(original, updated) ==> original.Some? && updated.Some?
    ensures ConditionsChanged(original, updated) == ConditionsChanged(updated, original)
    ensures original.Some? && updated.Some? && original.value.aiInstructions == updated.value.aiInstructions ==>
              !ConditionsChanged(original, updated)
    ensures original.Some? && updated.Some? && original.value.aiInstructions != updated.value.aiInstructions ==>
              ConditionsChanged(original, updated)
    ensures original.Some? && updated.Some? ==>
              !ConditionsChanged(original, Some(updated.value.(aiInstructions := original.value.aiInstructions)))
  {
  }
}

=== FILE: tool_cards.dfy ===
/** Which card the assistant chat shows for a tool invocation (`ToolCard` in
    apps/web/components/assistant-chat/tools.tsx). The card's rendering is not
    modelled; a card is the component chosen and the props it receives. */
module ToolCards {
  import opened Wrappers
  import opened JsStrings
  import opened ActionFields
  import opened RuleConditions

  /** The `result` object some tools return: the rule's conditions or actions
      before and after the update. */
  datatype ToolResult = ToolResult(
    originalConditions: Option<Condition>,
    updatedConditions: Option<Condition>,
    originalActions: Option<seq<Action>>,
    updatedActions: Option<seq<Action>>)

  /** The component chosen and its props; `A` is the type of the tool's arguments. */
  datatype Card<A> =
    | BasicInfo(text: string)
    | CreatedRule(args: A, createdRuleId: Option<string>)
    | UpdatedRuleConditions(args: A, ruleId: string, originalConditions: Option<Condition>, updatedConditions: Option<Condition>)
    | UpdatedRuleActions(args: A, ruleId: string, originalActions: Option<seq<Action>>, updatedActions: Option<seq<Action>>)
    | UpdatedLearnedPatterns(args: A, ruleId: string)
    | UpdateAbout(args: A)
    | AddToKnowledgeBase(args: A)

  /** The tool names that have a card. */
  const KnownTools: seq<string> := [
    "get_user_rules_and_settings",
    "get_learned_patterns",
    "create_rule",
    "update_rule_conditions",
    "update_rule_actions",
    "update_learned_patterns",
    "update_about",
    "add_to_knowledge_base"
  ]

  const RulesAndSettingsText := "Read rules and settings"
  const LearnedPatternsPrefix := "Read learned patterns for "

  /** `ruleId || ""`. */
  function RuleIdOrEmpty(ruleId: Option<string>): (r: string)
    ensures Truthy(ruleId) ==> r == ruleId.value
    ensures !Truthy(ruleId) ==> r == ""
  {
    OrEmpty(ruleId)
  }

  /** `ToolCard`: the card for a tool invocation, or nothing for an unknown
      tool. `ruleName` reads `args.ruleName` as a template string does. */
  function ToolCard<A>(toolName: string, args: A, ruleName: A -> string, ruleId: Option<string>, result: Option<ToolResult>): (r: Option<Card<A>>)
    ensures r.None? <==> toolName !in KnownTools
    ensures r.Some? && !r.value.BasicInfo? ==> r.value.args == args
    ensures r.Some? && (r.value.UpdatedRuleConditions? || r.value.UpdatedRuleActions? || r.value.UpdatedLearnedPatterns?) ==>
              r.value.ruleId == RuleIdOrEmpty(ruleId)
    ensures r.Some? && r.value.CreatedRule? ==> r.value.createdRuleId == ruleId
  {
    var rid := RuleIdOrEmpty(ruleId);
    match toolName
    case "get_user_rules_and_settings" => Some(BasicInfo(RulesAndSettingsText))
    case "get_learned_patterns" => Some(BasicInfo(LearnedPatternsPrefix + ruleName(args)))
    case "create_rule" => Some(CreatedRule(args, ruleId))
    case "update_rule_conditions" =>
      Some(UpdatedRuleConditions(
             args, rid,
             if result.Some? then result.value.originalConditions else None,
             if result.Some? then result.value.updatedConditions else None))
    case "update_rule_actions" =>
      Some(UpdatedRuleActions(
             args, rid,
             if result.Some? then result.value.originalActions else None,
             if result.Some? then result.value.updatedActions else None))
    case "update_learned_patterns" => Some(UpdatedLearnedPatterns(args, rid))
    case "update_about" => Some(UpdateAbout(args))
    case "add_to_knowledge_base" => Some(AddToKnowledgeBase(args))
    case _ => None
  }

  /** The tool a card stands for, read back from the card alone. */
  function CardTool<A>(card: Card<A>): string
  {
    match card
    case BasicInfo(text) => if text == RulesAndSettingsText then "get_user_rules_and_settings" else "get_learned_patterns"
    case CreatedRule(_, _) => "create_rule"
    case UpdatedRuleConditions(_, _, _, _) => "update_rule_conditions"
    case UpdatedRuleActions(_, _, _, _) => "update_rule_actions"
    case UpdatedLearnedPatterns(_, _) => "update_learned_patterns"
    case UpdateAbout(_) => "update_about"
    case AddToKnowledgeBase(_) => "add_to_knowledge_base"
  }

  /** The dispatch is one-to-one: the card determines the tool name it was chosen for. */
  lemma ToolCardRoundTrip<A>(toolName: string, args: A, ruleName: A -> string, ruleId: Option<string>, result: Option<ToolResult>)
    requires ToolCard(toolName, args, ruleName, ruleId, result).Some?
    ensures CardTool(ToolCard(toolName, args, ruleName, ruleId, result).value) == toolName
  {
    if toolName == "get_learned_patterns" {
      var text := LearnedPatternsPrefix + ruleName(args);
      assert text[0..5] == "Read " && text[5] == 'l';
      assert RulesAndSettingsText[5] == 'r';
    }
  }

  /** The update cards receive the diff inputs the tool's result carries, or
      none when there is no result. */
  lemma UpdateCardsReceiveResult<A>(args: A, ruleName: A -> string, ruleId: Option<string>, result: Option<ToolResult>)
    ensures var c := ToolCard("update_rule_conditions", args, ruleName, ruleId, result).value;
            c.originalConditions == (if result.Some? then result.value.originalConditions else None)
            && c.updatedConditions == (if result.Some? then result.value.updatedConditions else None)
    ensures var c := ToolCard("update_rule_actions", args, ruleName, ruleId, result).value;
            c.originalActions == (if result.Some? then result.value.originalActions else None)
            && c.updatedActions == (if result.Some? then result.value.updatedActions else None)
  {
  }

  /** The title of the "create rule" card: created once a rule id is known. */
  function CreatedRuleTitle(ruleId: Option<string>): (r: string)
    ensures Truthy(ruleId) <==> r == "New rule created:"
    ensures !Truthy(ruleId) <==> r == "Creating rule:"
  {
    if Truthy(ruleId) then "New rule created:" else "Creating rule:"
  }
}

=== FILE: wrappers.dfy ===
/** Optional values and results, standing in for JavaScript's `null`/`undefined`
    and for thrown errors. */
module Wrappers {

  /** A value that may be missing (`null` or `undefined` in the source). */
  datatype Option<+T> = None | Some(value: T)

  /** The outcome of an operation that may throw: a value or an error message. */
  datatype Result<+R> = Success(value: R) | Failure(error: string)
}
